=== FILE: README.md ===
# Dagster step execution: the per-step event sequencer

This project models in Dafny the core of Dagster's step execution,
`python_modules/dagster/dagster/core/execution/plan/execute_step.py`. One
compiled execution step has declared inputs and outputs. Given such a step and
what its collaborators do, the core produces the ordered stream of Dagster
events for one step attempt:

- a start or restarted event;
- the store-operation events of input loading;
- one checked step-input event per loaded input;
- for every item the compute function yields, that item's events;
- finally a success event.

Any failure along the way ends the stream early with one typed outcome. Every
event emitted before the failure is kept.

A Python generator that yields events and then returns or raises is modelled
as `Stream(events, outcome)`. `Then(a, b)` means "yield from `a`; only if it
returned, yield from `b`". Every collaborator is a pure function held in the
`Env` record:

- the type predicates;
- the input loader;
- the compute function;
- the version map;
- the choice between output manager and intermediate storage;
- `handle_output`;
- `set_intermediate`;
- the solid config;
- the type materializers.

Because the collaborators are pure, the eager model produces the same stream
as the lazy generators.

Modules, in dependency order:

- `StepModel`: values, Dagster types and the step descriptor.
- `Events`: events, outcomes, streams and `Then`.
- `ErrorBoundary`: how an exception becomes an outcome inside and outside
  `user_code_error_boundary`.
- `Collaborators`: what each collaborator can hand back.
- `TypeChecking`: `_do_type_check` and the two checked-event emitters.
- `InputLoading`: `_load_input_values` and the input part of the sequencer.
- `OutputChecker`: `_step_output_error_checked_user_event_sequence`.
- `Persistence`: `_set_objects` and `_materializations_to_events`.
- `MaterializationWalk`: `_create_output_materializations`.
- `Sequencer`: `core_dagster_event_sequence_for_step` and
  `_create_step_events_for_output`.
- `StepProperties`: theorems about whole step attempts.
- `Scenarios`: two worked examples.

Two behaviours of the code shape much of the model:

- **The materialization walk fires every match.** It does not stop at the first
  matching spec. Every spec naming the output fires, at every level from the
  step's handle up to the root, innermost first (execute_step.py lines 399-444).
- **Output managers and storage run outside any error boundary.**
  `handle_output`, `set_intermediate` and the iteration over what a manager
  hands back are not wrapped (execute_step.py lines 362-391). An exception there
  escapes as it is rather than as a user-code error.

Several theorems assume `StepModel.WellFormed`. It says that the input names
are unique and that the output names are unique, as they are in a compiled
plan. It is a precondition of theorems only, never of the operations.

## Model

| member | source | states |
|---|---|---|
| ErrorBoundary.Guarded | python_modules/dagster/dagster/core/execution/plan/execute_step.py:451-466 | An exception inside a user-code boundary never lets the attempt succeed. It becomes the boundary's user-code error of that kind exactly when it is an ordinary exception or the boundary allows no control flow. Otherwise Failure and RetryRequested pass through unchanged. |
| ErrorBoundary.Uncaught | python_modules/dagster/dagster/core/execution/plan/execute_step.py:362-391 | An exception outside any boundary keeps its identity. Failure stays an explicit failure, RetryRequested stays a retry request, anything else is unhandled, and it is never a user-code error. |
| TypeChecking.DoTypeCheck | python_modules/dagster/dagster/core/execution/plan/execute_step.py:103-117 | The check fails to complete exactly when the predicate raises. A returned TypeCheck comes back unchanged. Any other return becomes a failing TypeCheck whose description names the Dagster type, the returned value's type and the checked value's type. |
| TypeChecking.CheckData | python_modules/dagster/dagster/core/execution/plan/execute_step.py:120-132 | The type-check data on an event carries the check's verdict, its description and its metadata unchanged, labelled with the input or output name. |
| TypeChecking.TypeCheckedInput | python_modules/dagster/dagster/core/execution/plan/execute_step.py:135-171 | Exactly one step-input event exactly when the check completes. It is labelled with the input name and carries the check's verdict, description and metadata. The outcome is success exactly when that event passed, TypeCheckFailed(name) when it failed, and a type-check user-code error when the predicate raised. A failing event is always the last event. |
| TypeChecking.TypeCheckedOutput | python_modules/dagster/dagster/core/execution/plan/execute_step.py:192-231 | Like the input check, for one step-output event keyed by (step key, output name). The event carries the resolved version and the check's verdict, description and metadata. |
| InputLoading.FlattenFanIn | python_modules/dagster/dagster/core/execution/plan/execute_step.py:255-272 | A fan-in input becomes a list with the same length and order as its elements. Element i contributes its store object or its plain value. There is one event per store-interaction element, and object-store events carry the input name. The events equal those of each element taken on its own, joined in element order (`ElementsEvents`). |
| InputLoading.ResolveOne | python_modules/dagster/dagster/core/execution/plan/execute_step.py:249-277 | An object-store operation yields its object and one object-store event named after the input. An asset-store operation yields its object and one asset-store event. A fan-in input yields a list whose element i is element i's object or plain value, with the flattened fan-in events. A plain value passes with no event. |
| InputLoading.PutKeys | python_modules/dagster/dagster/core/execution/plan/execute_step.py:254-277 | Assigning an evaluated input keeps every existing key in place, appends a key not seen before at the end, and leaves the dictionary holding the assigned pair. |
| InputLoading.ResolveInputs | python_modules/dagster/dagster/core/execution/plan/execute_step.py:248-277 | The loading events are each loaded input's events joined in declaration order. The evaluated-input dictionary has unique keys, all of them names of non-Nothing declared inputs. With unique input names, the keys are exactly the non-Nothing inputs in declaration order. |
| InputLoading.ResolveInputsValues | python_modules/dagster/dagster/core/execution/plan/execute_step.py:248-277 | A loaded input that no later loaded input shares a name with holds, in the evaluated inputs, the value its loader's result resolves to. With unique names this fixes every key's value. |
| InputLoading.ResolveInputsIgnoresNothingLoader | python_modules/dagster/dagster/core/execution/plan/execute_step.py:493-497 | The loader is never consulted for a Nothing input. Any loader that agrees on the other inputs gives the same events and dictionary. |
| InputLoading.NothingInputsNotLoaded | python_modules/dagster/dagster/core/execution/plan/execute_step.py:493-495 | With unique input names, a Nothing input's name is not among the loaded input names. |
| InputLoading.CheckInputs | python_modules/dagster/dagster/core/execution/plan/execute_step.py:279-283 | Inputs are checked in dictionary order. Event i is the step-input event for key i, carrying that input's completed verdict. Checking stops at the first input whose check fails, which is then the last event and the TypeCheckFailed outcome, or at the first input whose predicate raises, which emits nothing. On success every input was checked. |
| OutputChecker.CompleteOutputs | python_modules/dagster/dagster/core/execution/plan/execute_step.py:82-100 | Every item the completion pass adds is `Output(name, None)` for an unseen required output of the Nothing type. Optional outputs never get one. The pass ends in success or in MissingOutput naming this step and an unseen declared output. |
| OutputChecker.CompleteOutputsMissing | python_modules/dagster/dagster/core/execution/plan/execute_step.py:82-100 | Completion raises MissingOutput exactly when some unseen required output is not of the Nothing type, and the output it names is such an output. |
| OutputChecker.CompleteOutputsExact | python_modules/dagster/dagster/core/execution/plan/execute_step.py:82-100 | Against a plain filter of the declared outputs: with k the first unseen required output that is not of the Nothing type, the pass emits exactly the implicit outputs declared before k and then raises MissingOutput for output k. When there is no such output it emits all the implicit outputs and ends normally. |
| OutputChecker.CompleteOutputsFirstMissing | python_modules/dagster/dagster/core/execution/plan/execute_step.py:92-100 | The output MissingOutput names is the first unseen required non-Nothing output in declaration order. The implicit outputs emitted before the raise are exactly those declared before it. |
| OutputChecker.CompleteOutputsCovers | python_modules/dagster/dagster/core/execution/plan/execute_step.py:82-91 | When completion ends normally, every required output was either seen or is among the implicit outputs. |
| OutputChecker.CompleteOutputsAtMostOnce | python_modules/dagster/dagster/core/execution/plan/execute_step.py:82-91 | With unique output names, completion yields each name at most once. |
| OutputChecker.CompleteOutputsMissingUnlisted | python_modules/dagster/dagster/core/execution/plan/execute_step.py:84-100 | With unique output names, the output reported missing is not among the implicit outputs emitted before the raise. |
| OutputChecker.CheckUserEvents | python_modules/dagster/dagster/core/execution/plan/execute_step.py:55-80 | Every output passed on is declared and was not seen before. A raising compute function ends the sequence with the compute boundary's verdict. A MissingOutput names this step and an unseen declared output, and the sequence never ends in a type-check failure. |
| OutputChecker.CheckUserEventsItems | python_modules/dagster/dagster/core/execution/plan/execute_step.py:55-100 | Everything the checker passes on is one of the compute function's own events or the implicit output of an unseen required Nothing output. |
| OutputChecker.CheckUserEventsAtMostOnce | python_modules/dagster/dagster/core/execution/plan/execute_step.py:55-100 | With unique output names, no output name is passed on twice, counting user outputs and implicit ones together. |
| OutputChecker.CheckUserEventsCovers | python_modules/dagster/dagster/core/execution/plan/execute_step.py:55-100 | When the checked sequence ends normally, every required output was seen before or is passed on. |
| OutputChecker.CheckUserEventsMissing | python_modules/dagster/dagster/core/execution/plan/execute_step.py:82-100 | With unique output names, a MissingOutput end names a required output that is not of the Nothing type and was never passed on. |
| OutputChecker.OutputErrorChecked | python_modules/dagster/dagster/core/execution/plan/execute_step.py:41-100 | Over a whole compute result, including one that is not a generator: only declared outputs pass, each at most once under unique names. A normal end means every required output was passed on. |
| OutputChecker.ComputeStream | python_modules/dagster/dagster/core/execution/plan/execute_step.py:467-469 | A compute function that returns no generator yields no events and returns normally. A generator is taken as it is. |
| OutputChecker.NoGeneratorCompletes | python_modules/dagster/dagster/core/execution/plan/execute_step.py:467-469 | A compute function that returns no generator is checked like an empty generator. The attempt's checked sequence raises MissingOutput exactly when some required output is not of the Nothing type. Otherwise it holds exactly the implicit Nothing outputs. |
| OutputChecker.UnyieldedOptionalNotPassed | python_modules/dagster/dagster/core/execution/plan/execute_step.py:82-91 | With unique output names, an optional output the compute function never yields is never passed on. |
| OutputChecker.CheckerStopsAtFirstRejected | python_modules/dagster/dagster/core/execution/plan/execute_step.py:55-78 | At the first undeclared or repeated output, the checker has passed on exactly the events before it, never the offending output, and ends in InvariantViolation. |
| OutputChecker.CheckerPassesUnrejected | python_modules/dagster/dagster/core/execution/plan/execute_step.py:55-100 | When no output is rejected and the compute function is exhausted, every user event passes unchanged and in order. It is followed by the completion pass run with every yielded name counted as seen. |
| OutputChecker.CheckerPassesUnrejectedRaised | python_modules/dagster/dagster/core/execution/plan/execute_step.py:451-473 | When no output is rejected and the compute function raises, every user event passes unchanged. The sequence ends with the compute boundary's verdict on the exception. |
| Persistence.ItemsToEvents | python_modules/dagster/dagster/core/execution/plan/execute_step.py:339-355 | One materialization event per accepted item, in order. InvariantViolation comes exactly when an item is not accepted, and the offending item is the next one. Success comes exactly when every item is emitted and the generator was exhausted. Otherwise the generator's exception escapes unwrapped. |
| Persistence.MaterializationsToEvents | python_modules/dagster/dagster/core/execution/plan/execute_step.py:339-355 | A manager's None gives no events. A single value is one item that must be an asset materialization. Every emitted event is an asset materialization. |
| Persistence.SetObjects | python_modules/dagster/dagster/core/execution/plan/execute_step.py:358-391 | On the output-manager path, a manager that raises at the call escapes unwrapped with no events. Otherwise the manager's materialization events come first, and the write goes through exactly when they do: then it ends with the SET_ASSET event for this handle, manager key and metadata, and if they fail their outcome is the write's. On the storage path, a raising store escapes unwrapped with no events. A returned operation record gives exactly one object-store event, named after the output, and any other return gives no event and the step goes on. Persistence never ends in a type-check, missing-output or user-code error. |
| Persistence.ManagerPathSetsAssetOnce | python_modules/dagster/dagster/core/execution/plan/execute_step.py:362-378 | A completed output-manager write records exactly one asset-store operation, a SET_ASSET for this handle, after one event per item the manager handed back. That is no event before it for None, one for a single returned value, and one per generator item. |
| Persistence.ManagerPathIgnoresStore | python_modules/dagster/dagster/core/execution/plan/execute_step.py:362-378 | The output-manager path never calls intermediate storage. |
| Persistence.StorePathIgnoresManager | python_modules/dagster/dagster/core/execution/plan/execute_step.py:379-391 | The storage path never calls an output manager. |
| Persistence.StorePathCallsStoreOnce | python_modules/dagster/dagster/core/execution/plan/execute_step.py:379-391 | The storage path calls the store once, with this output's type, handle, value and version. |
| MaterializationWalk.FireSpec | python_modules/dagster/dagster/core/execution/plan/execute_step.py:409-444 | A raising materializer is a materialization user-code error, control-flow signals included. Otherwise the result is the materializer's items turned into events as for any materialization list: the returned materializations in order, and InvariantViolation exactly when some returned item is not a materialization. |
| MaterializationWalk.SpecsEvents | python_modules/dagster/dagster/core/execution/plan/execute_step.py:406-444 | One level's specs emit only materialization events and end in success, InvariantViolation or a materialization user-code error. |
| MaterializationWalk.MalformedSpecStops | python_modules/dagster/dagster/core/execution/plan/execute_step.py:406-412 | The first spec of a level that is not a one-entry dictionary ends the level in InvariantViolation, whether or not it would have matched. Before that come exactly the events of the matching configs ahead of it. |
| MaterializationWalk.LevelEvents | python_modules/dagster/dagster/core/execution/plan/execute_step.py:399-405 | A level without solid config emits nothing and ends normally, so the walk goes on. Any level emits only materialization events. |
| MaterializationWalk.WalkFrom | python_modules/dagster/dagster/core/execution/plan/execute_step.py:399-444 | The walk from a handle to the root emits only materialization events and ends in success, InvariantViolation or a materialization user-code error. |
| MaterializationWalk.CreateOutputMaterializations | python_modules/dagster/dagster/core/execution/plan/execute_step.py:394-444 | The walk starts at the step's own handle. With one-entry specs everywhere on the way up, it equals firing every matching config of the step's own level, then of each ancestor up to the root, innermost first. It emits only materialization events and ends in success, InvariantViolation or a materialization user-code error. |
| MaterializationWalk.SpecsFireMatching | python_modules/dagster/dagster/core/execution/plan/execute_step.py:406-410 | When every spec is a one-entry dictionary, a level fires exactly its specs for this output, in spec order. |
| MaterializationWalk.WalkFiresEveryMatch | python_modules/dagster/dagster/core/execution/plan/execute_step.py:394-444 | With well-shaped specs, the walk equals firing every matching spec of every ancestor level. Levels go from the step's handle up to the root, innermost first, and specs keep their order within a level. The walk does not stop at the first match. |
| MaterializationWalk.MatchAtAnyLevelFires | python_modules/dagster/dagster/core/execution/plan/execute_step.py:399-409 | A spec for this output at any level of the walk is among the configs that fire, however far up it is. |
| Sequencer.EventsForOutput | python_modules/dagster/dagster/core/execution/plan/execute_step.py:315-336 | One output emits something exactly when its type check completes. The first event is then its step-output event, keyed by (step key, output name), carrying the resolved version and the check's verdict, description and metadata. It is the only step-output event. Success requires that check to have passed, and a failed check is the last event. |
| Sequencer.PerOutputOrder | python_modules/dagster/dagster/core/execution/plan/execute_step.py:327-336 | One output's events come in order: the step-output event, then after a passing check the persistence events, then after completed persistence the materialization walk's events. After a passing check the output ends as persistence ends when that fails, and otherwise as the walk ends, so no failure of either is swallowed. Without a passing check the output is its checked stage alone. |
| Sequencer.ProcessItem | python_modules/dagster/dagster/core/execution/plan/execute_step.py:296-308 | An output item's events and outcome are those of the per-output stage: the checked event, persistence and the walk. It gives at most one step-output event, for its name, and one on success. A materialization or expectation gives its single event. Any other item is an invariant violation. |
| Sequencer.ProcessItems | python_modules/dagster/dagster/core/execution/plan/execute_step.py:292-308 | The run goes through exactly when every item's own processing does, and then its events are each item's events in order. Otherwise it ends with the first failing item's outcome, after the events of every item up to and including that one (`RunsAs` against `ProcessedEach`). For every name, the checked items give at most as many step-output events as output items, and exactly as many on success. They emit no input or framing events. |
| Sequencer.FramingEvent | python_modules/dagster/dagster/core/execution/plan/execute_step.py:243-246 | The attempt opens with a restarted event carrying the count exactly when the prior-attempt count is positive. A count of zero or below gives a start event. |
| Sequencer.InputStage | python_modules/dagster/dagster/core/execution/plan/execute_step.py:279-283 | Only step-input events are emitted. Event i carries the completed verdict for the evaluated input at key i. Checking stops where a check fails or a predicate raises, and every evaluated input is checked on success. |
| Sequencer.ComputeStage | python_modules/dagster/dagster/core/execution/plan/execute_step.py:285-312 | After the input checks, success is announced exactly by the last event and by no other. No framing or input events appear, and a failed check is always the last event. |
| Sequencer.ExecuteStep | python_modules/dagster/dagster/core/execution/plan/execute_step.py:234-312 | The first event is the framing event and no later event is one. The attempt succeeds exactly when its last event is the success event, which appears nowhere else. A failed type check can only be the final event. |
| StepProperties.OutputEventsDeclared | python_modules/dagster/dagster/core/execution/plan/execute_step.py:62-70 | Every step-output event of an attempt is for a declared output. |
| StepProperties.OutputsReportedOnce | python_modules/dagster/dagster/core/execution/plan/execute_step.py:71-91 | With unique output names, an attempt reports each output at most once. A successful attempt reports every required output exactly once. |
| StepProperties.UnyieldedOptionalUnreported | python_modules/dagster/dagster/core/execution/plan/execute_step.py:82-91 | With unique output names, an optional output the compute function never yields gets no step-output event in the attempt. |
| StepProperties.InputsCheckedInOrder | python_modules/dagster/dagster/core/execution/plan/execute_step.py:279-283 | Step-input labels name only loaded inputs. With unique names they are a prefix of the non-Nothing inputs in declaration order, and all of them on success. |
| StepProperties.NothingInputsNeverChecked | python_modules/dagster/dagster/core/execution/plan/execute_step.py:493-495 | With unique input names, a Nothing input is never type-checked. |
| StepProperties.InputsBeforeCompute | python_modules/dagster/dagster/core/execution/plan/execute_step.py:249-298 | Before any input event there are only the framing event, loading events and other input events. |
| StepProperties.FailedInputCheckEndsStep | python_modules/dagster/dagster/core/execution/plan/execute_step.py:160-171 | A failing input check is the attempt's last event. The attempt ends with that failed check, and no output or success event was emitted. |
| StepProperties.ComputeSignalPassesThrough | python_modules/dagster/dagster/core/execution/plan/execute_step.py:451-473 | A compute function that raises after unrejected events ends the attempt as follows, once its items went through: Failure as an explicit failure, RetryRequested as a retry request, anything else as a step-execution user-code error. |
| StepProperties.MissingOutputNamesUnreported | python_modules/dagster/dagster/core/execution/plan/execute_step.py:92-100 | With unique output names, an attempt ending in MissingOutput names this step and a required, non-Nothing declared output. No step-output event was emitted for that output. |
| StepProperties.EvaluatedInputsIgnoreNothingLoader | python_modules/dagster/dagster/core/execution/plan/execute_step.py:490-497 | The evaluated inputs and loading events of an attempt do not depend on what the loader would do for Nothing inputs. |
| Scenarios.AddSucceeds | python_modules/dagster/dagster/core/execution/plan/execute_step.py:234-312 | A concrete first attempt with one input and one stored output. It emits start, input check, output check, storage record and success, in that order. |
| Scenarios.NestedSpecsBothFire | python_modules/dagster/dagster/core/execution/plan/execute_step.py:394-444 | A concrete nested solid with a matching spec at both levels. Both fire, inner first, and a spec for another output is skipped. |

## Left out

- Interrupts are not modelled. The compute function's events are iterated under `raise_interrupts_immediately` (execute_step.py line 472), so an interrupt can end the stream part-way through the compute stage. The model has no interrupt outcome.
- Logging is not modelled. It has no effect on the event stream.
- Timing: the step's duration is a parameter of `ExecuteStep`, not measured.
- Exception and event message texts are not modelled. Only the outcome kind and the fields the events carry are.
- Failures of the input loader itself are not modelled. The loader is a total collaborator, because its own error handling lives in the input sources, which are not part of this model.
- `ErrorBoundary.Guarded`: `user_code_error_boundary` also re-raises Dagster framework errors unchanged. Raised values here are ordinary exceptions, Failure or RetryRequested only. The boundary's implementation is not part of this model.
- A missing output-manager resource (the `getattr` lookup in `_set_objects`) and a missing entry in the version map are not modelled. Both are total functions here.
- `check.failed` and `check.invariant` failures, such as an unexpected user event shape or a materialization spec that is not a one-entry dictionary, are folded into InvariantViolation. The source raises a separate check error for them.
- `MaterializationWalk.FireSpec`: a materializer hands back a finite list. A materializer generator that raises part-way through iteration is not modelled.
- Solid handles are paths of solid names, and solid config is keyed by path rather than by its dotted string form.
- The GraphQL schema, the UI query types and the GraphQL tests in the repository are outside this core.

=== FILE: collaborators.dfy ===
/** Everything the step-execution core calls but does not implement: type
    predicates, the input loader, the compute function, the version map, the
    backend choice, output managers, intermediate storage, solid config and
    type materializers. Each is a pure function of what the core hands it,
    and each result shape covers what the core distinguishes, including a
    raise. */
module Collaborators {
  import opened StepModel
  import opened Events
  import opened ErrorBoundary

  /** What a type predicate hands back. */
  datatype PredicateReturn =
    | ReturnedTypeCheck(typeCheck: TypeCheck)
    | ReturnedOther(other: Value)
    | PredicateRaised(predicateRaised: Raised)

  /** One element of a fan-in input: a store interaction record carrying the
      loaded object, or the value itself. */
  datatype FanInElement =
    | ObjectStoreElement(objectOp: ObjectStoreOperation)
    | AssetStoreElement(assetOp: AssetStoreOperation)
    | PlainElement(plain: Value)

  /** What the input loader produces for one input. */
  datatype LoadedInput =
    | ObjectStoreLoaded(loadedObjectOp: ObjectStoreOperation)
    | FanInLoaded(elements: seq<FanInElement>)
    | AssetStoreLoaded(loadedAssetOp: AssetStoreOperation)
    | PlainLoaded(loadedValue: Value)

  /** What a compute function yields. `YieldedOther` stands for any value of
      a shape the core does not know. */
  datatype UserEvent =
    | YieldedOutput(outputName: string, outputValue: Value)
    | YieldedMaterialization(yieldedMaterialization: Materialization)
    | YieldedExpectation(yieldedExpectation: ExpectationResult)
    | YieldedOther(otherValue: Value)

  /** How a generator stops: it is exhausted, or it raises. */
  datatype GeneratorEnd = Exhausted | RaisedAt(raised: Raised)

  datatype UserStream = UserStream(userEvents: seq<UserEvent>, userEnd: GeneratorEnd)

  /** A compute function returns a generator or nothing at all. */
  datatype ComputeReturn = NoGenerator | Generator(stream: UserStream)

  /** One item handed back by an output manager or a materializer. */
  datatype ReturnedItem = ReturnedMaterialization(item: Materialization) | ReturnedOtherItem(otherItem: Value)

  /** What `handle_output` does: raise at the call, return None, return one
      plain value (which is then treated as a single item), or return a
      generator that may itself raise after some items. */
  datatype ManagerReturn =
    | ManagerRaised(managerRaised: Raised)
    | ManagerReturnedNone
    | ManagerReturnedValue(single: ReturnedItem)
    | ManagerGenerator(managerItems: seq<ReturnedItem>, managerEnd: GeneratorEnd)

  /** What intermediate storage's versioned set does. */
  datatype StoreReturn =
    | StoreRaised(storeRaised: Raised)
    | StoreRecorded(record: ObjectStoreOperation)
    | StoreReturnedOther

  /** What a type materializer does. */
  datatype MaterializerReturn =
    | MaterializerRaised(materializerRaised: Raised)
    | MaterializerReturned(materializerItems: seq<ReturnedItem>)

  /** One output-materialization spec of a solid's config: a dictionary that
      should map exactly one output name to its materializer config. */
  type MaterializerSpec = seq<(string, string)>

  datatype SolidConfig = SolidConfig(materializerSpecs: seq<MaterializerSpec>)

  datatype Env = Env(
    typeCheck: (DagsterType, Value) -> PredicateReturn,
    loadInput: StepInputDef -> LoadedInput,
    compute: seq<(string, Value)> -> ComputeReturn,
    versions: StepOutputHandle -> Version,
    usesOutputManager: StepOutputHandle -> bool,
    handleOutput: (string, StepOutputHandle, Value) -> ManagerReturn,
    setIntermediate: (DagsterType, StepOutputHandle, Value, Version) -> StoreReturn,
    solidConfigs: map<SolidHandle, SolidConfig>,
    materialize: (DagsterType, string, Value) -> MaterializerReturn)
}

=== FILE: error_boundary.dfy ===
/** The user-code error boundary: how an exception raised by user code turns
    into the way a step attempt ends. */
module ErrorBoundary {
  import opened Events

  /** What a call into user code can raise: an arbitrary exception, or one of
      the two control-flow signals user code raises on purpose. */
  datatype Raised = UserException | FailureSignal | RetrySignal

  /** An exception that leaves the step without passing any boundary keeps
      its identity: the two signals stay themselves, anything else escapes
      as an unhandled error. */
  function Uncaught(r: Raised): (o: Outcome)
    ensures o != Success && !o.UserCodeError?
    ensures o == UnhandledError <==> r.UserException?
    ensures o == ExplicitFailure <==> r.FailureSignal?
    ensures o == RetryRequested <==> r.RetrySignal?
  {
    match r
    case UserException => UnhandledError
    case FailureSignal => ExplicitFailure
    case RetrySignal => RetryRequested
  }

  /** An exception raised inside a boundary of the given kind. The control-flow
      allow-list is either both signals (the compute function's boundary) or
      empty (type-check and materializer boundaries). */
  function Guarded(kind: UserCodeErrorKind, allowControlFlow: bool, r: Raised): (o: Outcome)
    ensures o != Success
    ensures o.UserCodeError? <==> r.UserException? || !allowControlFlow
    ensures o.UserCodeError? ==> o.errorKind == kind
    ensures !o.UserCodeError? ==> o == Uncaught(r)
  {
    if allowControlFlow && !r.UserException? then Uncaught(r) else UserCodeError(kind)
  }
}

=== FILE: events.dfy ===
/** The closed set of lifecycle events a step attempt emits, the typed ways an
    attempt can end, and the stream that pairs the two. A Python generator
    that yields some events and then either returns or raises is modelled as
    `Stream(events, outcome)`; `Then` is "yield from a, then yield from b". */
module Events {
  import opened StepModel

  datatype ObjectStoreOpKind = SetObject | GetObject | CpObject | SetExternalObject | GetExternalObject

  /** A record of one interaction with the intermediate (object) store. */
  datatype ObjectStoreOperation = ObjectStoreOperation(
    storeOp: ObjectStoreOpKind, storeKey: string, storeObj: Value, storeVersion: Version)

  datatype AssetStoreOpKind = SetAsset | GetAsset

  datatype AssetStoreHandle = AssetStoreHandle(managerKey: string, managerMetadata: seq<string>)

  /** A record of one interaction with an output manager (asset store). */
  datatype AssetStoreOperation = AssetStoreOperation(
    assetOp: AssetStoreOpKind, assetHandle: StepOutputHandle,
    assetStoreHandle: Option<AssetStoreHandle>, assetObj: Value)

  /** What a step-input or step-output event reports about its type check. */
  datatype TypeCheckData = TypeCheckData(
    passed: bool, checkLabel: string, checkDescription: Option<Description>, entries: seq<string>)

  datatype Event =
    | StepStartEvent
    | StepRestartedEvent(priorAttempts: int)
    | ObjectStoreOpEvent(operation: ObjectStoreOperation, valueName: string)
    | AssetStoreOpEvent(assetOperation: AssetStoreOperation)
    | StepInputEvent(inputName: string, checkData: TypeCheckData)
    | StepOutputEvent(outputHandle: StepOutputHandle, checkData: TypeCheckData, version: Version)
    | StepMaterializationEvent(materialization: Materialization)
    | StepExpectationEvent(expectation: ExpectationResult)
    | StepSuccessEvent(durationMs: nat)

  /** Which user-code error boundary wrapped the failing user code. */
  datatype UserCodeErrorKind = TypeCheckError | StepExecutionError | TypeMaterializationError

  /** How a step attempt ends. Every value but `Success` is an exception that
      leaves the event generator. */
  datatype Outcome =
    | Success
    | InvariantViolation
    | MissingOutput(stepKey: string, missingName: string)
    | TypeCheckFailed(failedLabel: string)
    | UserCodeError(errorKind: UserCodeErrorKind)
    | ExplicitFailure
    | RetryRequested
    | UnhandledError

  datatype Stream = Stream(events: seq<Event>, outcome: Outcome)

  /** A stage that yields these events and returns normally. */
  function Emit(events: seq<Event>): (s: Stream)
    ensures s.outcome == Success && s.events == events
  {
    Stream(events, Success)
  }

  /** A stage that raises before yielding anything. */
  function Fail(o: Outcome): (s: Stream)
    ensures s.events == [] && s.outcome == o
  {
    Stream([], o)
  }

  /** Run `a`; only if it returned normally run `b`. A raise in `a` ends the
      whole stream, keeping what `a` already yielded. */
  function Then(a: Stream, b: Stream): (r: Stream)
    ensures a.outcome == Success ==> r.events == a.events + b.events && r.outcome == b.outcome
    ensures a.outcome != Success ==> r == a
  {
    if a.outcome == Success then Stream(a.events + b.events, b.outcome) else a
  }

  /** Several event sequences joined front to back. */
  function Concat(parts: seq<seq<Event>>): seq<Event>
    decreases |parts|
  {
    if |parts| == 0 then [] else parts[0] + Concat(parts[1..])
  }

  lemma {:induction false} ConcatSnoc(parts: seq<seq<Event>>)
    requires |parts| > 0
    ensures Concat(parts) == Concat(parts[..|parts| - 1]) + parts[|parts| - 1]
    decreases |parts|
  {
    if |parts| == 1 {
      assert parts[..0] == [];
    } else {
      var tail := parts[1..];
      ConcatSnoc(tail);
      assert tail[..|tail| - 1] == parts[..|parts| - 1][1..];
      assert tail[|tail| - 1] == parts[|parts| - 1];
    }
  }

  /** The events of several streams joined in order. */
  function JoinedEvents(parts: seq<Stream>): seq<Event> {
    Concat(seq(|parts|, i requires 0 <= i < |parts| => parts[i].events))
  }

  predicate AllSucceed(parts: seq<Stream>) {
    forall i | 0 <= i < |parts| :: parts[i].outcome == Success
  }

  /** Stream k is the first of the run that does not return normally. */
  predicate FirstFailing(parts: seq<Stream>, k: int) {
    && 0 <= k < |parts|
    && parts[k].outcome != Success
    && forall j | 0 <= j < k :: parts[j].outcome == Success
  }

  /** What running streams one after another with `Then` amounts to: it
      goes through exactly when every stream does, with all their events;
      otherwise it ends with the first failing stream's outcome, after the
      events of the streams up to and including that one. */
  predicate RunsAs(r: Stream, parts: seq<Stream>) {
    && (r.outcome == Success <==> AllSucceed(parts))
    && (r.outcome == Success ==> r.events == JoinedEvents(parts))
    && forall k | 0 <= k < |parts| && FirstFailing(parts, k) :: r.outcome == parts[k].outcome && r.events == JoinedEvents(parts[..k + 1])
  }

  /** One step of a run: a head stream followed by a tail that runs as the
      remaining streams runs as the whole sequence. */
  lemma {:induction false} RunsAsCons(parts: seq<Stream>, tail: Stream)
    requires |parts| > 0
    requires RunsAs(tail, parts[1..])
    ensures RunsAs(Then(parts[0], tail), parts)
  {
    var r := Then(parts[0], tail);
    var evs := seq(|parts|, i requires 0 <= i < |parts| => parts[i].events);
    var rest := parts[1..];
    assert evs[1..] == seq(|rest|, i requires 0 <= i < |rest| => rest[i].events);
    assert AllSucceed(parts) <==> parts[0].outcome == Success && AllSucceed(rest) by {
      if parts[0].outcome == Success && AllSucceed(rest) {
        forall i | 0 <= i < |parts|
          ensures parts[i].outcome == Success
        {
          if i > 0 { assert parts[i] == rest[i - 1]; }
        }
      }
    }
    forall k | 0 <= k < |parts| && FirstFailing(parts, k)
      ensures r.outcome == parts[k].outcome && r.events == JoinedEvents(parts[..k + 1])
    {
      var prefix := parts[..k + 1];
      var pevs := seq(|prefix|, i requires 0 <= i < |prefix| => prefix[i].events);
      if k == 0 {
        assert pevs == [parts[0].events];
        assert Concat(pevs[1..]) == [];
        assert JoinedEvents(prefix) == parts[0].events;
      } else {
        assert FirstFailing(rest, k - 1) by {
          forall j | 0 <= j < k - 1
            ensures rest[j].outcome == Success
          {
            assert rest[j] == parts[j + 1];
          }
        }
        assert prefix[1..] == rest[..k];
        assert pevs[1..] == seq(|rest[..k]|, i requires 0 <= i < k => rest[..k][i].events);
        assert tail.events == JoinedEvents(rest[..k]);
        assert JoinedEvents(prefix) == parts[0].events + JoinedEvents(rest[..k]);
      }
    }
  }

  predicate IsCheckEvent(e: Event) {
    e.StepInputEvent? || e.StepOutputEvent?
  }

  predicate IsFailedCheck(e: Event) {
    IsCheckEvent(e) && !e.checkData.passed
  }

  predicate IsStoreEvent(e: Event) {
    e.ObjectStoreOpEvent? || e.AssetStoreOpEvent?
  }

  /** Events that may appear between the framing event and the success event. */
  predicate IsBodyEvent(e: Event) {
    !e.StepStartEvent? && !e.StepRestartedEvent? && !e.StepSuccessEvent?
  }

  function Last(events: seq<Event>): Event
    requires |events| > 0
  {
    events[|events| - 1]
  }

  /** A failing type check is always reported by its event, and that event
      is the last one: no event other than the last is a failing check, and
      the stream ends in TypeCheckFailed exactly when its last event is a
      failing check, which then carries the failed label. */
  predicate CheckFailureFramed(s: Stream) {
    && (forall i | 0 <= i < |s.events| - 1 :: !IsFailedCheck(s.events[i]))
    && (s.outcome.TypeCheckFailed? <==> |s.events| > 0 && IsFailedCheck(Last(s.events)))
    && (s.outcome.TypeCheckFailed? ==> Last(s.events).checkData.checkLabel == s.outcome.failedLabel)
  }

  /** A stage with no check events that never ends in TypeCheckFailed is framed. */
  lemma NoChecksFramed(s: Stream)
    requires forall e | e in s.events :: !IsCheckEvent(e)
    requires !s.outcome.TypeCheckFailed?
    ensures CheckFailureFramed(s)
  {
    if |s.events| > 0 {
      assert Last(s.events) in s.events;
    }
    forall i | 0 <= i < |s.events| - 1
      ensures !IsFailedCheck(s.events[i])
    {
      assert s.events[i] in s.events;
    }
  }

  /** Sequencing keeps the framing: a failing check can only be the last
      event of the composed stream. */
  lemma ThenFramed(a: Stream, b: Stream)
    requires CheckFailureFramed(a) && CheckFailureFramed(b)
    ensures CheckFailureFramed(Then(a, b))
  {
    if a.outcome == Success {
      var r := Then(a, b);
      assert forall i | 0 <= i < |a.events| :: !IsFailedCheck(a.events[i]) by {
        forall i | 0 <= i < |a.events|
          ensures !IsFailedCheck(a.events[i])
        {
          if i == |a.events| - 1 {
            assert a.events[i] == Last(a.events);
          }
        }
      }
      forall i | 0 <= i < |r.events| - 1
        ensures !IsFailedCheck(r.events[i])
      {
        if i >= |a.events| {
          assert r.events[i] == b.events[i - |a.events|];
        }
      }
      if |b.events| > 0 {
        assert Last(r.events) == Last(b.events);
      } else {
        assert r.events == a.events;
        if |a.events| > 0 {
          assert Last(r.events) == a.events[|a.events| - 1];
        }
      }
    }
  }

  /** The number of step-output events labelled with this output name. */
  function OutputEventCount(events: seq<Event>, name: string): nat {
    if |events| == 0 then 0
    else
      var e := Last(events);
      OutputEventCount(events[..|events| - 1], name) + (if e.StepOutputEvent? && e.outputHandle.outputName == name then 1 else 0)
  }

  /** The labels of the step-input events, in stream order. */
  function InputLabels(events: seq<Event>): seq<string> {
    if |events| == 0 then []
    else
      var e := Last(events);
      InputLabels(events[..|events| - 1]) + (if e.StepInputEvent? then [e.inputName] else [])
  }

  lemma {:induction false} OutputEventCountAppend(a: seq<Event>, b: seq<Event>, name: string)
    ensures OutputEventCount(a + b, name) == OutputEventCount(a, name) + OutputEventCount(b, name)
    decreases |b|
  {
    if |b| == 0 {
      assert a + b == a;
    } else {
      assert (a + b)[..|a + b| - 1] == a + b[..|b| - 1];
      OutputEventCountAppend(a, b[..|b| - 1], name);
    }
  }

  lemma {:induction false} OutputEventCountNone(events: seq<Event>, name: string)
    requires forall e | e in events :: !e.StepOutputEvent?
    ensures OutputEventCount(events, name) == 0
    decreases |events|
  {
    if |events| > 0 {
      assert Last(events) in events;
      assert forall e | e in events[..|events| - 1] :: e in events;
      OutputEventCountNone(events[..|events| - 1], name);
    }
  }

  lemma {:induction false} InputLabelsAppend(a: seq<Event>, b: seq<Event>)
    ensures InputLabels(a + b) == InputLabels(a) + InputLabels(b)
    decreases |b|
  {
    if |b| == 0 {
      assert a + b == a;
    } else {
      assert (a + b)[..|a + b| - 1] == a + b[..|b| - 1];
      InputLabelsAppend(a, b[..|b| - 1]);
    }
  }

  lemma {:induction false} InputLabelsNone(events: seq<Event>)
    requires forall e | e in events :: !e.StepInputEvent?
    ensures InputLabels(events) == []
    decreases |events|
  {
    if |events| > 0 {
      assert Last(events) in events;
      assert forall e | e in events[..|events| - 1] :: e in events;
      InputLabelsNone(events[..|events| - 1]);
    }
  }
}

=== FILE: input_loading.dfy ===
/** Input resolution and input type checking (execute_step.py
    `_load_input_values` and the first two loops of
    `core_dagster_event_sequence_for_step`). */
module InputLoading {
  import opened StepModel
  import opened Events
  import opened Collaborators
  import opened TypeChecking

  /** The evaluated inputs, as an insertion-ordered dictionary from input
      name to value. */
  type InputMap = seq<(string, Value)>

  function Keys(d: InputMap): seq<string> {
    seq(|d|, i requires 0 <= i < |d| => d[i].0)
  }

  /** Dictionary assignment: an existing key keeps its position and takes the
      new value; a new key goes to the end. */
  function Put(d: InputMap, k: string, v: Value): InputMap {
    if |d| == 0 then [(k, v)]
    else if d[0].0 == k then [(k, v)] + d[1..]
    else [d[0]] + Put(d[1..], k, v)
  }

  /** Assignment keeps the key order, adds a new key at the end, and the
      dictionary then holds the pair. */
  lemma {:induction false} PutKeys(d: InputMap, k: string, v: Value)
    ensures k in Keys(d) ==> Keys(Put(d, k, v)) == Keys(d)
    ensures k !in Keys(d) ==> Keys(Put(d, k, v)) == Keys(d) + [k]
    ensures (k, v) in Put(d, k, v)
    decreases |d|
  {
    var r := Put(d, k, v);
    if |d| == 0 {
      assert r[0] == (k, v);
    } else {
      assert d == [d[0]] + d[1..];
      ConsKeys(d[0], d[1..]);
      if d[0].0 == k {
        ConsKeys((k, v), d[1..]);
        assert r[0] == (k, v);
      } else {
        var rest := Put(d[1..], k, v);
        PutKeys(d[1..], k, v);
        ConsKeys(d[0], rest);
        assert (k, v) in rest;
      }
    }
  }

  lemma ConsKeys(p: (string, Value), d: InputMap)
    ensures Keys([p] + d) == [p.0] + Keys(d)
  {
    assert forall i | 0 <= i < |d| :: ([p] + d)[i + 1] == d[i];
  }

  /** The value one fan-in element contributes to the input list. */
  function ElementValue(e: FanInElement): Value {
    match e
    case ObjectStoreElement(op) => op.storeObj
    case AssetStoreElement(aop) => aop.assetObj
    case PlainElement(v) => v
  }

  predicate IsStoreElement(e: FanInElement) {
    !e.PlainElement?
  }

  /** How many elements of a fan-in input are store interactions. */
  function StoreElementCount(elements: seq<FanInElement>): nat {
    if |elements| == 0 then 0
    else StoreElementCount(elements[..|elements| - 1]) + (if IsStoreElement(elements[|elements| - 1]) then 1 else 0)
  }

  /** The events one fan-in element reports. */
  function ElementEvents(name: string, e: FanInElement): seq<Event> {
    match e
    case ObjectStoreElement(op) => [ObjectStoreOpEvent(op, name)]
    case AssetStoreElement(aop) => [AssetStoreOpEvent(aop)]
    case PlainElement(_) => []
  }

  /** The events of every fan-in element joined in element order. */
  function ElementsEvents(name: string, elements: seq<FanInElement>): seq<Event> {
    Concat(seq(|elements|, i requires 0 <= i < |elements| => ElementEvents(name, elements[i])))
  }

  lemma ElementsEventsSnoc(name: string, elements: seq<FanInElement>)
    requires |elements| > 0
    ensures ElementsEvents(name, elements)
         == ElementsEvents(name, elements[..|elements| - 1]) + ElementEvents(name, elements[|elements| - 1])
  {
    var parts := seq(|elements|, i requires 0 <= i < |elements| => ElementEvents(name, elements[i]));
    var prefix := elements[..|elements| - 1];
    assert parts[..|elements| - 1] == seq(|prefix|, i requires 0 <= i < |prefix| => ElementEvents(name, prefix[i]));
    ConcatSnoc(parts);
  }

  datatype FanIn = FanIn(fanInEvents: seq<Event>, fanInValues: seq<Value>)

  /** Flattens a fan-in input element by element: the value list keeps the
      length and order of the elements, each store-interaction element
      contributes its object and exactly one event, and a plain element is
      taken as it is. */
  function FlattenFanIn(name: string, elements: seq<FanInElement>): (r: FanIn)
    ensures |r.fanInValues| == |elements|
    ensures forall i | 0 <= i < |elements| :: r.fanInValues[i] == ElementValue(elements[i])
    ensures |r.fanInEvents| == StoreElementCount(elements)
    ensures forall e | e in r.fanInEvents :: IsStoreEvent(e) && (e.ObjectStoreOpEvent? ==> e.valueName == name)
    ensures r.fanInEvents == ElementsEvents(name, elements)
  {
    if |elements| == 0 then FanIn([], [])
    else
      var prev := FlattenFanIn(name, elements[..|elements| - 1]);
      var last := elements[|elements| - 1];
      ElementsEventsSnoc(name, elements);
      FanIn(prev.fanInEvents + ElementEvents(name, last), prev.fanInValues + [ElementValue(last)])
  }

  datatype Resolved = Resolved(resolvedEvents: seq<Event>, resolvedValue: Value)

  /** Turns what the loader produced for one input into its value, reporting
      every store interaction as one event. */
  function ResolveOne(name: string, loaded: LoadedInput): (r: Resolved)
    ensures forall e | e in r.resolvedEvents :: IsStoreEvent(e)
    ensures loaded.PlainLoaded? ==> r == Resolved([], loaded.loadedValue)
    ensures loaded.ObjectStoreLoaded? ==>
      && r.resolvedValue == loaded.loadedObjectOp.storeObj
      && r.resolvedEvents == [ObjectStoreOpEvent(loaded.loadedObjectOp, name)]
    ensures loaded.AssetStoreLoaded? ==>
      && r.resolvedValue == loaded.loadedAssetOp.assetObj
      && r.resolvedEvents == [AssetStoreOpEvent(loaded.loadedAssetOp)]
    ensures loaded.FanInLoaded? ==>
      && r.resolvedValue.ListValue?
      && |r.resolvedValue.items| == |loaded.elements|
      && (forall i | 0 <= i < |loaded.elements| :: r.resolvedValue.items[i] == ElementValue(loaded.elements[i]))
      && r.resolvedEvents == FlattenFanIn(name, loaded.elements).fanInEvents
      && |r.resolvedEvents| == StoreElementCount(loaded.elements)
  {
    match loaded
    case ObjectStoreLoaded(op) => Resolved([ObjectStoreOpEvent(op, name)], op.storeObj)
    case FanInLoaded(elements) =>
      var f := FlattenFanIn(name, elements);
      Resolved(f.fanInEvents, ListValue(f.fanInValues))
    case AssetStoreLoaded(aop) => Resolved([AssetStoreOpEvent(aop)], aop.assetObj)
    case PlainLoaded(v) => Resolved([], v)
  }

  datatype Resolution = Resolution(loadEvents: seq<Event>, inputMap: InputMap)

  lemma {:induction false} LoadedNamesAreInputNames(defs: seq<StepInputDef>)
    ensures forall n | n in LoadedInputNames(defs) :: n in InputNames(defs)
    decreases |defs|
  {
    if |defs| > 0 {
      var prefix := defs[..|defs| - 1];
      LoadedNamesAreInputNames(prefix);
      assert forall n | n in InputNames(prefix) :: n in InputNames(defs) by {
        forall n | n in InputNames(prefix)
          ensures n in InputNames(defs)
        {
          var i :| 0 <= i < |prefix| && InputNames(prefix)[i] == n;
          assert InputNames(defs)[i] == n;
        }
      }
      assert InputNames(defs)[|defs| - 1] == defs[|defs| - 1].name;
    }
  }

  /** Every key of a dictionary built from loaded input names is the name
      of a declared input. */
  lemma InputMapNames(m: InputMap, defs: seq<StepInputDef>)
    requires forall k | k in Keys(m) :: k in LoadedInputNames(defs)
    ensures forall i | 0 <= i < |m| :: m[i].0 in InputNames(defs)
  {
    LoadedNamesAreInputNames(defs);
    forall i | 0 <= i < |m|
      ensures m[i].0 in InputNames(defs)
    {
      assert Keys(m)[i] in Keys(m);
    }
  }

  /** Dropping the last input keeps names unique, and the dropped input's
      name was not loaded before it. */
  lemma DistinctPrefix(defs: seq<StepInputDef>)
    requires |defs| > 0 && Distinct(InputNames(defs))
    ensures Distinct(InputNames(defs[..|defs| - 1]))
    ensures defs[|defs| - 1].name !in LoadedInputNames(defs[..|defs| - 1])
  {
    var prefix := defs[..|defs| - 1];
    var last := defs[|defs| - 1].name;
    var names := InputNames(defs);
    forall i, j | 0 <= i < j < |prefix|
      ensures InputNames(prefix)[i] != InputNames(prefix)[j]
    {
      assert InputNames(prefix)[i] == names[i] && InputNames(prefix)[j] == names[j];
    }
    forall i | 0 <= i < |prefix|
      ensures InputNames(prefix)[i] != last
    {
      assert InputNames(prefix)[i] == names[i] && names[|defs| - 1] == last;
    }
    LoadedNamesAreInputNames(prefix);
  }

  /** What loading one input reports: nothing for an input of the Nothing
      type, which is never loaded. */
  function InputLoadEvents(env: Env, d: StepInputDef): seq<Event> {
    if IsNothing(d.dagsterType) then [] else ResolveOne(d.name, env.loadInput(d)).resolvedEvents
  }

  /** The loading events of every input joined in declaration order. */
  function LoadedEvents(env: Env, defs: seq<StepInputDef>): seq<Event> {
    Concat(seq(|defs|, i requires 0 <= i < |defs| => InputLoadEvents(env, defs[i])))
  }

  lemma LoadedEventsSnoc(env: Env, defs: seq<StepInputDef>)
    requires |defs| > 0
    ensures LoadedEvents(env, defs)
         == LoadedEvents(env, defs[..|defs| - 1]) + InputLoadEvents(env, defs[|defs| - 1])
  {
    var parts := seq(|defs|, i requires 0 <= i < |defs| => InputLoadEvents(env, defs[i]));
    var prefix := defs[..|defs| - 1];
    assert parts[..|defs| - 1] == seq(|prefix|, i requires 0 <= i < |prefix| => InputLoadEvents(env, prefix[i]));
    ConcatSnoc(parts);
  }

  /** Loads every input whose type is not Nothing, in declaration order, and
      builds the evaluated-input dictionary. The loading events are those of
      each loaded input joined in declaration order. The dictionary's keys
      are the loaded input names (each once); when input names are unique
      they are exactly the non-Nothing inputs in declaration order. */
  function ResolveInputs(env: Env, defs: seq<StepInputDef>): (r: Resolution)
    ensures forall e | e in r.loadEvents :: IsStoreEvent(e)
    ensures r.loadEvents == LoadedEvents(env, defs)
    ensures Distinct(Keys(r.inputMap))
    ensures forall k | k in Keys(r.inputMap) :: k in LoadedInputNames(defs)
    ensures forall i | 0 <= i < |r.inputMap| :: r.inputMap[i].0 in InputNames(defs)
    ensures Distinct(InputNames(defs)) ==> Keys(r.inputMap) == LoadedInputNames(defs)
    decreases |defs|
  {
    if |defs| == 0 then Resolution([], [])
    else
      var prefix := defs[..|defs| - 1];
      var prev := ResolveInputs(env, prefix);
      var d := defs[|defs| - 1];
      if IsNothing(d.dagsterType) then
        assert Distinct(InputNames(defs)) ==> Distinct(InputNames(prefix)) by {
          if Distinct(InputNames(defs)) {
            DistinctPrefix(defs);
          }
        }
        InputMapNames(prev.inputMap, defs);
        LoadedEventsSnoc(env, defs);
        prev
      else
        var one := ResolveOne(d.name, env.loadInput(d));
        var r := Resolution(prev.loadEvents + one.resolvedEvents, Put(prev.inputMap, d.name, one.resolvedValue));
        PutKeys(prev.inputMap, d.name, one.resolvedValue);
        assert Distinct(InputNames(defs)) ==> Keys(r.inputMap) == LoadedInputNames(defs) by {
          if Distinct(InputNames(defs)) {
            DistinctPrefix(defs);
          }
        }
        InputMapNames(r.inputMap, defs);
        LoadedEventsSnoc(env, defs);
        r
  }

  /** Assignment to one key leaves every pair of another key in place. */
  lemma {:induction false} PutKeeps(d: InputMap, k: string, v: Value, p: (string, Value))
    requires p in d && p.0 != k
    ensures p in Put(d, k, v)
    decreases |d|
  {
    if d[0] != p {
      assert p in d[1..];
      if d[0].0 != k {
        PutKeeps(d[1..], k, v, p);
      }
    }
  }

  /** A loaded input that no later loaded input shares its name with
      holds, in the evaluated inputs, the value its loader resolved to. */
  lemma {:induction false} ResolveInputsValues(env: Env, defs: seq<StepInputDef>, j: int)
    requires 0 <= j < |defs| && !IsNothing(defs[j].dagsterType)
    requires forall k | j < k < |defs| && !IsNothing(defs[k].dagsterType) :: defs[k].name != defs[j].name
    ensures (defs[j].name, ResolveOne(defs[j].name, env.loadInput(defs[j])).resolvedValue)
         in ResolveInputs(env, defs).inputMap
    decreases |defs|
  {
    var prefix := defs[..|defs| - 1];
    var prev := ResolveInputs(env, prefix);
    var last := defs[|defs| - 1];
    var p := (defs[j].name, ResolveOne(defs[j].name, env.loadInput(defs[j])).resolvedValue);
    if j == |defs| - 1 {
      PutKeys(prev.inputMap, last.name, p.1);
    } else {
      ResolveInputsValues(env, prefix, j);
      if !IsNothing(last.dagsterType) {
        PutKeeps(prev.inputMap, last.name, ResolveOne(last.name, env.loadInput(last)).resolvedValue, p);
      }
    }
  }

  /** Type-checks the evaluated inputs in dictionary order and stops at the
      first input whose check does not pass. Exactly one step-input event is
      emitted per input checked, labelled with its name, so the labels are
      the dictionary's keys up to the point where checking stopped; on
      success every input was checked. */
  function CheckInputs(step: Step, env: Env, d: InputMap): (r: Stream)
    requires forall i | 0 <= i < |d| :: d[i].0 in InputNames(step.inputs)
    ensures forall e | e in r.events :: e.StepInputEvent?
    ensures |r.events| <= |d|
    ensures InputLabels(r.events) == Keys(d)[..|r.events|]
    ensures forall i | 0 <= i < |r.events| ::
      && InputCheck(step, env, d[i].0, d[i].1).CheckCompleted?
      && r.events[i] == StepInputEvent(d[i].0, CheckData(InputCheck(step, env, d[i].0, d[i].1).result, d[i].0))
    ensures r.outcome == Success ==> |r.events| == |d|
    ensures r.outcome == Success || r.outcome.TypeCheckFailed? || r.outcome == UserCodeError(TypeCheckError)
    ensures r.outcome.TypeCheckFailed? ==>
      && |r.events| > 0 && r.outcome == TypeCheckFailed(d[|r.events| - 1].0)
      && !r.events[|r.events| - 1].checkData.passed
    ensures r.outcome == UserCodeError(TypeCheckError) ==>
      |r.events| < |d| && InputCheck(step, env, d[|r.events|].0, d[|r.events|].1).CheckRaised?
    ensures CheckFailureFramed(r)
  {
    if |d| == 0 then
      NoChecksFramed(Emit([]));
      Emit([])
    else
      assert Keys(d) == [d[0].0] + Keys(d[1..]);
      assert Keys(d)[0] in Keys(d);
      var head := TypeCheckedInput(step, env, d[0].0, d[0].1);
      var tail := CheckInputs(step, env, d[1..]);
      ThenFramed(head, tail);
      CheckedLabelsPrefix(head, tail, d[0].0, Keys(d[1..]));
      CheckedVerdictsCons(step, env, d, head, tail);
      Then(head, tail)
  }

  /** Putting one checked input in front of the rest: every event is the
      verdict of the input at its position, and checking stopped at a
      failing verdict or at a predicate that raised. */
  lemma CheckedVerdictsCons(step: Step, env: Env, d: InputMap, head: Stream, tail: Stream)
    requires |d| > 0 && forall i | 0 <= i < |d| :: d[i].0 in InputNames(step.inputs)
    requires head == TypeCheckedInput(step, env, d[0].0, d[0].1)
    requires var t := d[1..];
      && |tail.events| <= |t|
      && (forall i | 0 <= i < |tail.events| ::
            && InputCheck(step, env, t[i].0, t[i].1).CheckCompleted?
            && tail.events[i] == StepInputEvent(t[i].0, CheckData(InputCheck(step, env, t[i].0, t[i].1).result, t[i].0)))
      && (tail.outcome.TypeCheckFailed? ==>
            && |tail.events| > 0 && tail.outcome == TypeCheckFailed(t[|tail.events| - 1].0)
            && !tail.events[|tail.events| - 1].checkData.passed)
      && (tail.outcome == UserCodeError(TypeCheckError) ==>
            |tail.events| < |t| && InputCheck(step, env, t[|tail.events|].0, t[|tail.events|].1).CheckRaised?)
    ensures var r := Then(head, tail);
      && (forall i | 0 <= i < |r.events| ::
            && InputCheck(step, env, d[i].0, d[i].1).CheckCompleted?
            && r.events[i] == StepInputEvent(d[i].0, CheckData(InputCheck(step, env, d[i].0, d[i].1).result, d[i].0)))
      && (r.outcome.TypeCheckFailed? ==>
            && |r.events| > 0 && r.outcome == TypeCheckFailed(d[|r.events| - 1].0)
            && !r.events[|r.events| - 1].checkData.passed)
      && (r.outcome == UserCodeError(TypeCheckError) ==>
            |r.events| < |d| && InputCheck(step, env, d[|r.events|].0, d[|r.events|].1).CheckRaised?)
  {
    var r := Then(head, tail);
    var t := d[1..];
    if head.outcome == Success {
      forall i | 1 <= i < |r.events|
        ensures r.events[i] == tail.events[i - 1] && d[i] == t[i - 1]
      {
      }
    }
  }

  /** Putting one checked input in front of the rest keeps the step-input
      labels a prefix of the dictionary's keys. */
  lemma CheckedLabelsPrefix(head: Stream, tail: Stream, k: string, rest: seq<string>)
    requires |head.events| <= 1
    requires forall e | e in head.events :: e.StepInputEvent? && e.inputName == k
    requires head.outcome == Success ==> |head.events| == 1
    requires |tail.events| <= |rest| && InputLabels(tail.events) == rest[..|tail.events|]
    ensures InputLabels(Then(head, tail).events) == ([k] + rest)[..|Then(head, tail).events|]
  {
    if |head.events| == 1 {
      assert head.events[0] in head.events;
      assert head.events[..0] == [];
      assert InputLabels(head.events) == [k];
    }
    if head.outcome == Success {
      InputLabelsAppend(head.events, tail.events);
    }
  }

  /** The loader is consulted only for inputs whose type is not Nothing:
      replacing it by any loader that agrees on those inputs changes
      neither the loading events nor the evaluated inputs. */
  lemma {:induction false} ResolveInputsIgnoresNothingLoader(
    env: Env, loader: StepInputDef -> LoadedInput, defs: seq<StepInputDef>)
    requires forall d | d in defs && !IsNothing(d.dagsterType) :: loader(d) == env.loadInput(d)
    ensures ResolveInputs(env.(loadInput := loader), defs) == ResolveInputs(env, defs)
    decreases |defs|
  {
    if |defs| > 0 {
      var prefix := defs[..|defs| - 1];
      assert forall d | d in prefix :: d in defs;
      ResolveInputsIgnoresNothingLoader(env, loader, prefix);
      assert defs[|defs| - 1] in defs;
    }
  }

  /** An input of the Nothing type with a unique name is never among the
      loaded input names. */
  lemma {:induction false} NothingInputsNotLoaded(defs: seq<StepInputDef>, i: int)
    requires Distinct(InputNames(defs))
    requires 0 <= i < |defs| && IsNothing(defs[i].dagsterType)
    ensures defs[i].name !in LoadedInputNames(defs)
    decreases |defs|
  {
    var prefix := defs[..|defs| - 1];
    assert forall j | 0 <= j < |prefix| :: InputNames(prefix)[j] == InputNames(defs)[j];
    assert Distinct(InputNames(prefix));
    LoadedNamesAreInputNames(prefix);
    if i < |defs| - 1 {
      NothingInputsNotLoaded(prefix, i);
      assert InputNames(defs)[i] != InputNames(defs)[|defs| - 1];
    } else {
      assert defs[i].name !in InputNames(prefix) by {
        assert forall j | 0 <= j < |prefix| :: InputNames(defs)[j] != InputNames(defs)[i];
      }
    }
  }
}

=== FILE: materialization_walk.dfy ===
/** The materialization walk (execute_step.py
    `_create_output_materializations`): starting at the step's own solid
    handle and climbing to the root, every output-materialization spec in
    the solid config of every level that names this output fires, innermost
    level first. */
module MaterializationWalk {
  import opened StepModel
  import opened Events
  import opened ErrorBoundary
  import opened Collaborators
  import opened Persistence

  /** Runs the output type's materializer on one spec's config. The call is
      inside the materialization error boundary; the iteration over what it
      handed back is not, and an item of an unknown kind raises
      InvariantViolation. */
  function FireSpec(step: Step, env: Env, name: string, config: string, value: Value): (r: Stream)
    requires HasStepOutput(step, name)
    ensures forall e | e in r.events :: e.StepMaterializationEvent?
    ensures r.outcome == Success || r.outcome == InvariantViolation || r.outcome == UserCodeError(TypeMaterializationError)
    ensures var ret := env.materialize(StepOutputNamed(step.outputs, name).dagsterType, config, value);
      && (ret.MaterializerRaised? ==> r == Fail(UserCodeError(TypeMaterializationError)))
      && (ret.MaterializerReturned? ==>
            && r == ItemsToEvents(ret.materializerItems, Exhausted, true)
            && |r.events| <= |ret.materializerItems|
            && (forall i | 0 <= i < |r.events| ::
                  ret.materializerItems[i].ReturnedMaterialization?
                  && r.events[i] == StepMaterializationEvent(ret.materializerItems[i].item))
            && (r.outcome == InvariantViolation <==>
                  exists i | 0 <= i < |ret.materializerItems| :: !ret.materializerItems[i].ReturnedMaterialization?))
  {
    var t := StepOutputNamed(step.outputs, name).dagsterType;
    match env.materialize(t, config, value)
    case MaterializerRaised(raised) => Fail(Guarded(TypeMaterializationError, false, raised))
    case MaterializerReturned(items) => ItemsToEvents(items, Exhausted, true)
  }

  /** The specs of one solid config, in order. A spec that is not a
      one-entry dictionary is an invariant failure whether or not it would
      have matched; a spec for another output is skipped. */
  function SpecsEvents(step: Step, env: Env, specs: seq<MaterializerSpec>, name: string, value: Value): (r: Stream)
    requires HasStepOutput(step, name)
    ensures forall e | e in r.events :: e.StepMaterializationEvent?
    ensures r.outcome == Success || r.outcome == InvariantViolation || r.outcome == UserCodeError(TypeMaterializationError)
    decreases |specs|
  {
    if |specs| == 0 then Emit([])
    else
      var spec := specs[0];
      var head :=
        if |spec| != 1 then Fail(InvariantViolation)
        else if spec[0].0 == name then FireSpec(step, env, name, spec[0].1, value)
        else Emit([]);
      Then(head, SpecsEvents(step, env, specs[1..], name, value))
  }

  /** One level of the walk: a handle without solid config contributes
      nothing and does not stop the walk. */
  function LevelEvents(step: Step, env: Env, h: SolidHandle, name: string, value: Value): (r: Stream)
    requires HasStepOutput(step, name)
    ensures forall e | e in r.events :: e.StepMaterializationEvent?
    ensures r.outcome == Success || r.outcome == InvariantViolation || r.outcome == UserCodeError(TypeMaterializationError)
    ensures h !in env.solidConfigs ==> r == Emit([])
  {
    if h in env.solidConfigs then SpecsEvents(step, env, env.solidConfigs[h].materializerSpecs, name, value)
    else Emit([])
  }

  /** The walk from a handle up to the root. */
  function WalkFrom(step: Step, env: Env, h: SolidHandle, name: string, value: Value): (r: Stream)
    requires HasStepOutput(step, name)
    ensures forall e | e in r.events :: e.StepMaterializationEvent?
    ensures r.outcome == Success || r.outcome == InvariantViolation || r.outcome == UserCodeError(TypeMaterializationError)
    decreases |h|
  {
    if |h| == 0 then Emit([])
    else Then(LevelEvents(step, env, h, name, value), WalkFrom(step, env, Parent(h), name, value))
  }

  /** The materializations for one output value, starting at the step's
      own handle: with well-shaped specs, every matching config of the
      step's own level and then of each ancestor fires, innermost first. */
  function CreateOutputMaterializations(step: Step, env: Env, name: string, value: Value): (r: Stream)
    requires HasStepOutput(step, name)
    ensures forall e | e in r.events :: e.StepMaterializationEvent?
    ensures r.outcome == Success || r.outcome == InvariantViolation || r.outcome == UserCodeError(TypeMaterializationError)
    ensures SpecsWellShaped(env, Ancestors(step.handle)) ==>
      r == FireAll(step, env, name, AllMatchingConfigs(env, Ancestors(step.handle), name), value)
  {
    if SpecsWellShaped(env, Ancestors(step.handle)) then
      WalkFiresEveryMatch(step, env, step.handle, name, value);
      WalkFrom(step, env, step.handle, name, value)
    else
      WalkFrom(step, env, step.handle, name, value)
  }

  // A reference description of which specs fire, independent of the walk.

  /** The handles the walk visits: the handle itself, then each ancestor,
      the root last. */
  function Ancestors(h: SolidHandle): (r: seq<SolidHandle>)
    ensures |r| == |h|
  {
    seq(|h|, i requires 0 <= i < |h| => h[..|h| - i])
  }

  /** The configs of the specs at one level that are for this output, in
      spec order. */
  function MatchingConfigs(specs: seq<MaterializerSpec>, name: string): seq<string> {
    if |specs| == 0 then []
    else (if |specs[0]| == 1 && specs[0][0].0 == name then [specs[0][0].1] else []) + MatchingConfigs(specs[1..], name)
  }

  function LevelConfigs(env: Env, h: SolidHandle, name: string): seq<string> {
    if h in env.solidConfigs then MatchingConfigs(env.solidConfigs[h].materializerSpecs, name) else []
  }

  /** Every matching config at every listed level, level by level. */
  function AllMatchingConfigs(env: Env, levels: seq<SolidHandle>, name: string): seq<string> {
    if |levels| == 0 then [] else LevelConfigs(env, levels[0], name) + AllMatchingConfigs(env, levels[1..], name)
  }

  /** Every spec at the listed levels is a one-entry dictionary. */
  predicate SpecsWellShaped(env: Env, levels: seq<SolidHandle>) {
    forall k, j | 0 <= k < |levels| && levels[k] in env.solidConfigs
      && 0 <= j < |env.solidConfigs[levels[k]].materializerSpecs| ::
      |env.solidConfigs[levels[k]].materializerSpecs[j]| == 1
  }

  /** Fires the given configs in order, stopping at the first failure. */
  function FireAll(step: Step, env: Env, name: string, configs: seq<string>, value: Value): Stream
    requires HasStepOutput(step, name)
  {
    if |configs| == 0 then Emit([])
    else Then(FireSpec(step, env, name, configs[0], value), FireAll(step, env, name, configs[1..], value))
  }

  lemma ThenAssoc(a: Stream, b: Stream, c: Stream)
    ensures Then(Then(a, b), c) == Then(a, Then(b, c))
  {
    if a.outcome == Success && b.outcome == Success {
      assert (a.events + b.events) + c.events == a.events + (b.events + c.events);
    }
  }

  lemma {:induction false} FireAllAppend(step: Step, env: Env, name: string, xs: seq<string>, ys: seq<string>, value: Value)
    requires HasStepOutput(step, name)
    ensures FireAll(step, env, name, xs + ys, value) == Then(FireAll(step, env, name, xs, value), FireAll(step, env, name, ys, value))
    decreases |xs|
  {
    if |xs| == 0 {
      assert xs + ys == ys;
      assert Emit([]).events + FireAll(step, env, name, ys, value).events == FireAll(step, env, name, ys, value).events;
    } else {
      assert (xs + ys)[1..] == xs[1..] + ys;
      FireAllAppend(step, env, name, xs[1..], ys, value);
      ThenAssoc(FireSpec(step, env, name, xs[0], value), FireAll(step, env, name, xs[1..], value), FireAll(step, env, name, ys, value));
    }
  }

  /** With well-shaped specs, one level fires exactly its matching configs. */
  lemma {:induction false} SpecsFireMatching(step: Step, env: Env, specs: seq<MaterializerSpec>, name: string, value: Value)
    requires HasStepOutput(step, name)
    requires forall j | 0 <= j < |specs| :: |specs[j]| == 1
    ensures SpecsEvents(step, env, specs, name, value) == FireAll(step, env, name, MatchingConfigs(specs, name), value)
    decreases |specs|
  {
    if |specs| > 0 {
      SpecsFireMatching(step, env, specs[1..], name, value);
      var rest := SpecsEvents(step, env, specs[1..], name, value);
      if specs[0][0].0 == name {
        assert MatchingConfigs(specs, name) == [specs[0][0].1] + MatchingConfigs(specs[1..], name);
        assert MatchingConfigs(specs, name)[1..] == MatchingConfigs(specs[1..], name);
      } else {
        assert MatchingConfigs(specs, name) == MatchingConfigs(specs[1..], name);
        assert Emit([]).events + rest.events == rest.events;
      }
    }
  }

  /** The first spec of a level that is not a one-entry dictionary ends the
      level in InvariantViolation, after the events of the matching configs
      before it, whether or not it would have matched. */
  lemma {:induction false} MalformedSpecStops(step: Step, env: Env, specs: seq<MaterializerSpec>, name: string, value: Value, k: int)
    requires HasStepOutput(step, name)
    requires 0 <= k < |specs| && |specs[k]| != 1
    requires forall j | 0 <= j < k :: |specs[j]| == 1
    ensures SpecsEvents(step, env, specs, name, value)
         == Then(FireAll(step, env, name, MatchingConfigs(specs[..k], name), value), Fail(InvariantViolation))
    decreases k
  {
    if k == 0 {
      assert MatchingConfigs(specs[..0], name) == [];
      assert Emit([]).events + Fail(InvariantViolation).events == [];
    } else {
      var rest := specs[1..];
      MalformedSpecStops(step, env, rest, name, value, k - 1);
      var tail := Then(FireAll(step, env, name, MatchingConfigs(rest[..k - 1], name), value), Fail(InvariantViolation));
      assert specs[..k][1..] == rest[..k - 1];
      assert specs[..k][0] == specs[0];
      if specs[0][0].0 == name {
        var configs := MatchingConfigs(specs[..k], name);
        assert configs == [specs[0][0].1] + MatchingConfigs(rest[..k - 1], name);
        assert configs[1..] == MatchingConfigs(rest[..k - 1], name);
        ThenAssoc(FireSpec(step, env, name, specs[0][0].1, value),
                  FireAll(step, env, name, MatchingConfigs(rest[..k - 1], name), value), Fail(InvariantViolation));
      } else {
        assert MatchingConfigs(specs[..k], name) == MatchingConfigs(rest[..k - 1], name);
        assert Emit([]).events + tail.events == tail.events;
      }
    }
  }

  lemma AncestorsOfParent(h: SolidHandle)
    requires |h| > 0
    ensures Ancestors(h) == [h] + Ancestors(Parent(h))
  {
    var p := Parent(h);
    assert Ancestors(h)[0] == h;
    forall i | 0 <= i < |p|
      ensures Ancestors(h)[i + 1] == Ancestors(p)[i]
    {
      assert h[..|h| - (i + 1)] == p[..|p| - i];
    }
  }

  /** The walk fires every spec that names this output at every level from
      the step's handle up to the root, innermost level first and in spec
      order within a level, and nothing else. */
  lemma {:induction false} WalkFiresEveryMatch(step: Step, env: Env, h: SolidHandle, name: string, value: Value)
    requires HasStepOutput(step, name)
    requires SpecsWellShaped(env, Ancestors(h))
    ensures WalkFrom(step, env, h, name, value) == FireAll(step, env, name, AllMatchingConfigs(env, Ancestors(h), name), value)
    decreases |h|
  {
    if |h| > 0 {
      var p := Parent(h);
      AncestorsOfParent(h);
      assert SpecsWellShaped(env, Ancestors(p)) by {
        forall k, j | 0 <= k < |Ancestors(p)| && Ancestors(p)[k] in env.solidConfigs
          && 0 <= j < |env.solidConfigs[Ancestors(p)[k]].materializerSpecs|
          ensures |env.solidConfigs[Ancestors(p)[k]].materializerSpecs[j]| == 1
        {
          assert Ancestors(h)[k + 1] == Ancestors(p)[k];
        }
      }
      WalkFiresEveryMatch(step, env, p, name, value);
      assert Ancestors(h)[0] == h;
      assert AllMatchingConfigs(env, Ancestors(h), name)
          == LevelConfigs(env, h, name) + AllMatchingConfigs(env, Ancestors(p), name);
      if h in env.solidConfigs {
        var specs := env.solidConfigs[h].materializerSpecs;
        assert forall j | 0 <= j < |specs| :: |specs[j]| == 1 by {
          forall j | 0 <= j < |specs|
            ensures |specs[j]| == 1
          {
            assert Ancestors(h)[0] in env.solidConfigs;
          }
        }
        SpecsFireMatching(step, env, specs, name, value);
      } else {
        assert FireAll(step, env, name, [], value) == Emit([]);
        assert Emit([]).events + WalkFrom(step, env, p, name, value).events == WalkFrom(step, env, p, name, value).events;
      }
      FireAllAppend(step, env, name, LevelConfigs(env, h, name), AllMatchingConfigs(env, Ancestors(p), name), value);
    }
  }

  lemma {:induction false} MatchingConfigsContains(specs: seq<MaterializerSpec>, name: string, j: int)
    requires 0 <= j < |specs| && |specs[j]| == 1 && specs[j][0].0 == name
    ensures specs[j][0].1 in MatchingConfigs(specs, name)
    decreases |specs|
  {
    if j > 0 {
      MatchingConfigsContains(specs[1..], name, j - 1);
    }
  }

  /** A spec for this output at any level of the walk, however far up and
      whatever the levels below it hold, is among the configs that fire. */
  lemma {:induction false} MatchAtAnyLevelFires(env: Env, levels: seq<SolidHandle>, name: string, k: int, j: int)
    requires 0 <= k < |levels| && levels[k] in env.solidConfigs
    requires 0 <= j < |env.solidConfigs[levels[k]].materializerSpecs|
    requires |env.solidConfigs[levels[k]].materializerSpecs[j]| == 1
    requires env.solidConfigs[levels[k]].materializerSpecs[j][0].0 == name
    ensures env.solidConfigs[levels[k]].materializerSpecs[j][0].1 in AllMatchingConfigs(env, levels, name)
    decreases |levels|
  {
    if k == 0 {
      MatchingConfigsContains(env.solidConfigs[levels[0]].materializerSpecs, name, j);
    } else {
      MatchAtAnyLevelFires(env, levels[1..], name, k - 1, j);
    }
  }
}

=== FILE: output_checker.dfy ===
/** The output checker (execute_step.py
    `_step_output_error_checked_user_event_sequence`): it passes the compute
    function's events through, rejecting undeclared and repeated output
    names, and once the compute function is exhausted it completes the
    declared outputs that were never produced. */
module OutputChecker {
  import opened StepModel
  import opened Events
  import opened ErrorBoundary
  import opened Collaborators

  /** The checked sequence: the user events passed on (plus any implicit
      Nothing outputs), and how the sequence ends. */
  datatype CheckedSequence = CheckedSequence(items: seq<UserEvent>, end: Outcome)

  function Prepend(e: UserEvent, c: CheckedSequence): (r: CheckedSequence)
    ensures r.items == [e] + c.items && r.end == c.end
  {
    CheckedSequence([e] + c.items, c.end)
  }

  /** How many output events with this name a sequence of user events holds. */
  function OutputItemCount(items: seq<UserEvent>, name: string): nat {
    if |items| == 0 then 0
    else (if items[0].YieldedOutput? && items[0].outputName == name then 1 else 0) + OutputItemCount(items[1..], name)
  }

  lemma OutputItemCountCons(e: UserEvent, items: seq<UserEvent>, name: string)
    ensures OutputItemCount([e] + items, name)
         == (if e.YieldedOutput? && e.outputName == name then 1 else 0) + OutputItemCount(items, name)
  {
    assert ([e] + items)[1..] == items;
  }

  lemma {:induction false} OutputItemCountZero(items: seq<UserEvent>, name: string)
    requires forall e | e in items :: !(e.YieldedOutput? && e.outputName == name)
    ensures OutputItemCount(items, name) == 0
    decreases |items|
  {
    if |items| > 0 {
      assert items[0] in items;
      assert forall e | e in items[1..] :: e in items;
      OutputItemCountZero(items[1..], name);
    }
  }

  lemma {:induction false} OutputItemCountPositive(items: seq<UserEvent>, name: string)
    requires OutputItemCount(items, name) > 0
    ensures name in OutputNamesOf(items)
    decreases |items|
  {
    if !(items[0].YieldedOutput? && items[0].outputName == name) {
      OutputItemCountPositive(items[1..], name);
    }
  }

  /** The names of the output events in a sequence of user events. */
  function OutputNamesOf(items: seq<UserEvent>): (r: set<string>)
    ensures forall e | e in items && e.YieldedOutput? :: e.outputName in r
    ensures forall n | n in r :: exists e | e in items :: e.YieldedOutput? && e.outputName == n
  {
    set e | e in items && e.YieldedOutput? :: e.outputName
  }

  /** An output that the checker completes implicitly if it was never produced. */
  predicate RequiredNothing(o: StepOutputDef) {
    !o.optional && IsNothing(o.dagsterType)
  }

  /** An output whose absence is an error. */
  predicate RequiredValue(o: StepOutputDef) {
    !o.optional && !IsNothing(o.dagsterType)
  }

  /** The completion pass over the declared outputs, in declaration order:
      an unseen optional output is skipped, an unseen required Nothing
      output yields one implicit `Output(name, None)`, and the first unseen
      required output of any other type raises MissingOutput naming the step
      and that output. */
  function CompleteOutputs(step: Step, outs: seq<StepOutputDef>, seen: set<string>): (r: CheckedSequence)
    ensures forall e | e in r.items ::
      e.YieldedOutput? && e.outputValue == NoneValue && e.outputName !in seen && e.outputName in OutputNames(outs)
    ensures forall e | e in r.items ::
      exists o | o in outs :: RequiredNothing(o) && o.name !in seen && e == YieldedOutput(o.name, NoneValue)
    ensures r.end == Success || r.end.MissingOutput?
    ensures r.end.MissingOutput? ==>
      r.end.stepKey == step.key && r.end.missingName !in seen && r.end.missingName in OutputNames(outs)
    decreases |outs|
  {
    if |outs| == 0 then CheckedSequence([], Success)
    else
      var o := outs[0];
      var rest := CompleteOutputs(step, outs[1..], seen);
      assert OutputNames(outs) == [o.name] + OutputNames(outs[1..]);
      ImplicitItemsCons(outs, seen, rest.items);
      if o.name !in seen && !o.optional then
        if IsNothing(o.dagsterType) then Prepend(YieldedOutput(o.name, NoneValue), rest)
        else CheckedSequence([], MissingOutput(step.key, o.name))
      else
        rest
  }

  /** A required output, not of the Nothing type, that was never seen. */
  predicate UnseenValue(o: StepOutputDef, seen: set<string>) {
    o.name !in seen && RequiredValue(o)
  }

  /** Position k holds the first unseen required output that is not of the
      Nothing type. */
  predicate FirstUnseenValue(outs: seq<StepOutputDef>, seen: set<string>, k: int) {
    && 0 <= k < |outs| && UnseenValue(outs[k], seen)
    && forall j | 0 <= j < k :: !UnseenValue(outs[j], seen)
  }

  /** The implicit outputs, as a plain filter: one `Output(name, None)` for
      every unseen required Nothing output, in declaration order. */
  function ImplicitNothing(outs: seq<StepOutputDef>, seen: set<string>): seq<UserEvent>
    decreases |outs|
  {
    if |outs| == 0 then []
    else
      (if outs[0].name !in seen && RequiredNothing(outs[0]) then [YieldedOutput(outs[0].name, NoneValue)] else [])
      + ImplicitNothing(outs[1..], seen)
  }

  /** The completion pass against its reference: with k the first unseen
      required output that is not of the Nothing type (or the number of
      outputs when there is none), it passes on exactly the implicit
      outputs declared before k, then raises MissingOutput naming output k
      or ends normally. */
  lemma {:induction false} CompleteOutputsExact(step: Step, outs: seq<StepOutputDef>, seen: set<string>, k: int)
    requires 0 <= k <= |outs|
    requires forall j | 0 <= j < k :: !UnseenValue(outs[j], seen)
    requires k < |outs| ==> UnseenValue(outs[k], seen)
    ensures CompleteOutputs(step, outs, seen)
         == CheckedSequence(ImplicitNothing(outs[..k], seen),
                            if k < |outs| then MissingOutput(step.key, outs[k].name) else Success)
    decreases |outs|
  {
    if |outs| > 0 {
      var o := outs[0];
      if k == 0 {
        assert outs[..0] == [];
      } else {
        CompleteOutputsExact(step, outs[1..], seen, k - 1);
        assert outs[..k][1..] == outs[1..][..k - 1];
        assert outs[..k][0] == o;
      }
    } else {
      assert outs[..k] == [];
    }
  }

  /** Implicit outputs for the tail of the declared outputs are implicit
      outputs for all of them, and so is one for the head when it is an
      unseen required Nothing output. */
  lemma ImplicitItemsCons(outs: seq<StepOutputDef>, seen: set<string>, items: seq<UserEvent>)
    requires |outs| > 0
    requires forall e | e in items ::
      exists o | o in outs[1..] :: RequiredNothing(o) && o.name !in seen && e == YieldedOutput(o.name, NoneValue)
    ensures forall e | e in items ::
      exists o | o in outs :: RequiredNothing(o) && o.name !in seen && e == YieldedOutput(o.name, NoneValue)
    ensures RequiredNothing(outs[0]) && outs[0].name !in seen ==>
      forall e | e in [YieldedOutput(outs[0].name, NoneValue)] + items ::
        exists o | o in outs :: RequiredNothing(o) && o.name !in seen && e == YieldedOutput(o.name, NoneValue)
  {
    assert forall p | p in outs[1..] :: p in outs;
    assert outs[0] in outs;
  }

  /** The completion pass raises MissingOutput exactly when some required
      output that is not of the Nothing type was never seen, and the one it
      names is such an output. */
  lemma {:induction false} CompleteOutputsMissing(step: Step, outs: seq<StepOutputDef>, seen: set<string>)
    ensures CompleteOutputs(step, outs, seen).end.MissingOutput?
        <==> exists o | o in outs :: RequiredValue(o) && o.name !in seen
    ensures CompleteOutputs(step, outs, seen).end.MissingOutput? ==>
      exists o | o in outs :: RequiredValue(o) && o.name == CompleteOutputs(step, outs, seen).end.missingName
    decreases |outs|
  {
    if |outs| > 0 {
      var o := outs[0];
      var tail := outs[1..];
      CompleteOutputsMissing(step, tail, seen);
      assert forall p | p in outs :: p == o || p in tail;
      if o.name !in seen && RequiredValue(o) {
        assert CompleteOutputs(step, outs, seen).end == MissingOutput(step.key, o.name);
      } else {
        assert CompleteOutputs(step, outs, seen).end == CompleteOutputs(step, tail, seen).end;
        assert forall p | p in tail :: p in outs;
      }
    }
  }

  /** The output MissingOutput names is the first unseen required output
      that is not of the Nothing type, in declaration order, and the
      implicit outputs passed on before the raise are exactly those
      declared before it. */
  lemma {:induction false} CompleteOutputsFirstMissing(step: Step, outs: seq<StepOutputDef>, seen: set<string>)
    ensures var r := CompleteOutputs(step, outs, seen);
      r.end.MissingOutput? ==>
        exists k | FirstUnseenValue(outs, seen, k) ::
          r.end.missingName == outs[k].name && r.items == ImplicitNothing(outs[..k], seen)
    decreases |outs|
  {
    var r := CompleteOutputs(step, outs, seen);
    if |outs| > 0 && r.end.MissingOutput? {
      var tail := outs[1..];
      if UnseenValue(outs[0], seen) {
        CompleteOutputsExact(step, outs, seen, 0);
        assert FirstUnseenValue(outs, seen, 0);
      } else {
        assert r.end == CompleteOutputs(step, tail, seen).end;
        CompleteOutputsFirstMissing(step, tail, seen);
        var k :| FirstUnseenValue(tail, seen, k);
        assert FirstUnseenValue(outs, seen, k + 1) by {
          assert forall j | 1 <= j <= k + 1 :: outs[j] == tail[j - 1];
        }
        CompleteOutputsExact(step, outs, seen, k + 1);
      }
    }
  }

  /** When no required output of another type than Nothing is missing, the
      completion pass ends normally and passes on exactly the implicit
      outputs. */
  lemma CompleteOutputsNoneMissing(step: Step, outs: seq<StepOutputDef>, seen: set<string>)
    requires forall j | 0 <= j < |outs| :: !UnseenValue(outs[j], seen)
    ensures CompleteOutputs(step, outs, seen) == CheckedSequence(ImplicitNothing(outs, seen), Success)
  {
    CompleteOutputsExact(step, outs, seen, |outs|);
    assert outs[..|outs|] == outs;
  }

  /** When the completion pass ends normally, every required output was
      either seen or is now among the implicit outputs. */
  lemma {:induction false} CompleteOutputsCovers(step: Step, outs: seq<StepOutputDef>, seen: set<string>)
    requires CompleteOutputs(step, outs, seen).end == Success
    ensures forall o | o in outs && !o.optional :: o.name in seen || o.name in OutputNamesOf(CompleteOutputs(step, outs, seen).items)
    decreases |outs|
  {
    if |outs| > 0 {
      var rest := CompleteOutputs(step, outs[1..], seen);
      CompleteOutputsCovers(step, outs[1..], seen);
      assert forall p | p in outs :: p == outs[0] || p in outs[1..];
      var r := CompleteOutputs(step, outs, seen);
      assert forall n | n in OutputNamesOf(rest.items) :: n in OutputNamesOf(r.items) by {
        forall n | n in OutputNamesOf(rest.items)
          ensures n in OutputNamesOf(r.items)
        {
          var e :| e in rest.items && e.YieldedOutput? && e.outputName == n;
          assert e in r.items;
        }
      }
      if outs[0].name !in seen && !outs[0].optional {
        assert r.items[0] == YieldedOutput(outs[0].name, NoneValue);
      }
    }
  }

  /** With unique declared names, the completion pass emits each name at
      most once. */
  lemma {:induction false} CompleteOutputsAtMostOnce(step: Step, outs: seq<StepOutputDef>, seen: set<string>, n: string)
    requires Distinct(OutputNames(outs))
    ensures OutputItemCount(CompleteOutputs(step, outs, seen).items, n) <= 1
    decreases |outs|
  {
    if |outs| > 0 {
      var o := outs[0];
      var rest := CompleteOutputs(step, outs[1..], seen);
      assert Distinct(OutputNames(outs[1..])) by {
        assert forall i | 0 <= i < |outs| - 1 :: OutputNames(outs[1..])[i] == OutputNames(outs)[i + 1];
      }
      CompleteOutputsAtMostOnce(step, outs[1..], seen, n);
      if o.name !in seen && !o.optional && IsNothing(o.dagsterType) {
        OutputItemCountCons(YieldedOutput(o.name, NoneValue), rest.items, n);
        if n == o.name {
          assert o.name !in OutputNames(outs[1..]) by {
            assert forall i | 0 <= i < |outs| - 1 :: OutputNames(outs[1..])[i] == OutputNames(outs)[i + 1];
            assert OutputNames(outs)[0] == o.name;
          }
          OutputItemCountZero(rest.items, n);
        }
      }
    }
  }

  /** The checker proper, over the remaining user events with the set of
      output names seen so far. A compute function that raises ends the
      checked sequence with the compute boundary's verdict; an undeclared or
      repeated output name ends it with InvariantViolation before that
      output is passed on. */
  function CheckUserEvents(step: Step, events: seq<UserEvent>, end: GeneratorEnd, seen: set<string>): (r: CheckedSequence)
    ensures forall e | e in r.items && e.YieldedOutput? :: HasStepOutput(step, e.outputName) && e.outputName !in seen
    ensures !r.end.TypeCheckFailed?
    ensures r.end.UserCodeError? ==> r.end.errorKind == StepExecutionError
    ensures r.end.MissingOutput? ==>
      r.end.stepKey == step.key && r.end.missingName !in seen && HasStepOutput(step, r.end.missingName)
    decreases |events|
  {
    if |events| == 0 then
      match end
      case RaisedAt(raised) => CheckedSequence([], Guarded(StepExecutionError, true, raised))
      case Exhausted => CompleteOutputs(step, step.outputs, seen)
    else
      var e := events[0];
      if e.YieldedOutput? then
        if !HasStepOutput(step, e.outputName) || e.outputName in seen then
          CheckedSequence([], InvariantViolation)
        else
          Prepend(e, CheckUserEvents(step, events[1..], end, seen + {e.outputName}))
      else
        Prepend(e, CheckUserEvents(step, events[1..], end, seen))
  }

  /** With unique declared names, no output name is passed on twice: a
      user output is passed on only while unseen, and an implicit one only
      when it was never seen. */
  lemma {:induction false} CheckUserEventsAtMostOnce(
    step: Step, events: seq<UserEvent>, end: GeneratorEnd, seen: set<string>, n: string)
    requires WellFormed(step)
    ensures OutputItemCount(CheckUserEvents(step, events, end, seen).items, n) <= 1
    decreases |events|
  {
    if |events| == 0 {
      if end.Exhausted? {
        CompleteOutputsAtMostOnce(step, step.outputs, seen, n);
      }
    } else {
      var e := events[0];
      if e.YieldedOutput? && HasStepOutput(step, e.outputName) && e.outputName !in seen {
        var rest := CheckUserEvents(step, events[1..], end, seen + {e.outputName});
        OutputItemCountCons(e, rest.items, n);
        if n == e.outputName {
          OutputItemCountZero(rest.items, n);
        } else {
          CheckUserEventsAtMostOnce(step, events[1..], end, seen + {e.outputName}, n);
        }
      } else if !e.YieldedOutput? {
        var rest := CheckUserEvents(step, events[1..], end, seen);
        OutputItemCountCons(e, rest.items, n);
        CheckUserEventsAtMostOnce(step, events[1..], end, seen, n);
      }
    }
  }

  /** When the checked sequence ends normally, every required output was
      seen before or is passed on. */
  lemma {:induction false} CheckUserEventsCovers(step: Step, events: seq<UserEvent>, end: GeneratorEnd, seen: set<string>)
    requires CheckUserEvents(step, events, end, seen).end == Success
    ensures forall o | o in step.outputs && !o.optional ::
      o.name in seen || o.name in OutputNamesOf(CheckUserEvents(step, events, end, seen).items)
    decreases |events|
  {
    if |events| == 0 {
      CompleteOutputsCovers(step, step.outputs, seen);
    } else {
      var e := events[0];
      var seen' := if e.YieldedOutput? then seen + {e.outputName} else seen;
      CheckUserEventsCovers(step, events[1..], end, seen');
      var rest := CheckUserEvents(step, events[1..], end, seen');
      var r := CheckUserEvents(step, events, end, seen);
      assert r.items == [e] + rest.items;
      assert forall n | n in OutputNamesOf(rest.items) :: n in OutputNamesOf(r.items) by {
        forall n | n in OutputNamesOf(rest.items)
          ensures n in OutputNamesOf(r.items)
        {
          var x :| x in rest.items && x.YieldedOutput? && x.outputName == n;
          assert x in r.items;
        }
      }
      if e.YieldedOutput? {
        assert e in r.items;
      }
    }
  }

  /** The compute function's events as a user stream: a compute function
      that returns no generator yields nothing and returns normally; a
      generator is taken as it is. */
  function ComputeStream(compute: ComputeReturn): (r: UserStream)
    ensures compute.NoGenerator? ==> |r.userEvents| == 0 && r.userEnd.Exhausted?
    ensures compute.Generator? ==> r == compute.stream
  {
    if compute.NoGenerator? then UserStream([], Exhausted) else compute.stream
  }

  /** A compute function that returns no generator is checked like an empty
      one: only the completion pass runs, so the implicit Nothing outputs
      are passed on, and a required output of another type is missing. */
  lemma NoGeneratorCompletes(step: Step)
    ensures var r := OutputErrorChecked(step, NoGenerator);
      && (r.end.MissingOutput? <==> exists o | o in step.outputs :: RequiredValue(o))
      && ((forall j | 0 <= j < |step.outputs| :: !RequiredValue(step.outputs[j])) ==>
            r == CheckedSequence(ImplicitNothing(step.outputs, {}), Success))
  {
    assert OutputErrorChecked(step, NoGenerator) == CompleteOutputs(step, step.outputs, {});
    CompleteOutputsMissing(step, step.outputs, {});
    if forall j | 0 <= j < |step.outputs| :: !RequiredValue(step.outputs[j]) {
      CompleteOutputsNoneMissing(step, step.outputs, {});
    }
  }

  /** The checker over a whole compute result: only declared outputs are
      passed on, with unique declared names each at most once, and a
      normal end means every required output was passed on. */
  function OutputErrorChecked(step: Step, compute: ComputeReturn): (r: CheckedSequence)
    ensures forall e | e in r.items && e.YieldedOutput? :: HasStepOutput(step, e.outputName)
    ensures WellFormed(step) ==> forall n :: OutputItemCount(r.items, n) <= 1
    ensures !r.end.TypeCheckFailed?
    ensures r.end.UserCodeError? ==> r.end.errorKind == StepExecutionError
    ensures r.end == Success ==> forall o | o in step.outputs && !o.optional :: o.name in OutputNamesOf(r.items)
  {
    var user := ComputeStream(compute);
    var r := CheckUserEvents(step, user.userEvents, user.userEnd, {});
    assert WellFormed(step) ==> forall n :: OutputItemCount(r.items, n) <= 1 by {
      forall n | WellFormed(step)
        ensures OutputItemCount(r.items, n) <= 1
      {
        CheckUserEventsAtMostOnce(step, user.userEvents, user.userEnd, {}, n);
      }
    }
    assert r.end == Success ==> forall o | o in step.outputs && !o.optional :: o.name in OutputNamesOf(r.items) by {
      if r.end == Success {
        CheckUserEventsCovers(step, user.userEvents, user.userEnd, {});
      }
    }
    r
  }

  /** Everything the checker passes on is one of the compute function's
      own events or the implicit output of an unseen required Nothing
      output. */
  lemma {:induction false} CheckUserEventsItems(step: Step, events: seq<UserEvent>, end: GeneratorEnd, seen: set<string>)
    ensures forall e | e in CheckUserEvents(step, events, end, seen).items ::
      || e in events
      || exists o | o in step.outputs :: RequiredNothing(o) && o.name !in seen && e == YieldedOutput(o.name, NoneValue)
    decreases |events|
  {
    if |events| > 0 {
      var e := events[0];
      var seen' := SeenAfter(e, seen);
      if !e.YieldedOutput? || (HasStepOutput(step, e.outputName) && e.outputName !in seen) {
        var rest := CheckUserEvents(step, events[1..], end, seen');
        CheckUserEventsItems(step, events[1..], end, seen');
        assert CheckUserEvents(step, events, end, seen).items == [e] + rest.items;
        assert forall x | x in events[1..] :: x in events;
      }
    }
  }

  /** With unique declared names, an optional output the compute function
      never yields is never passed on: the implicit outputs are only for
      required outputs. */
  lemma UnyieldedOptionalNotPassed(step: Step, compute: ComputeReturn, i: int)
    requires WellFormed(step)
    requires 0 <= i < |step.outputs| && step.outputs[i].optional
    requires forall e | e in ComputeStream(compute).userEvents ::
      !(e.YieldedOutput? && e.outputName == step.outputs[i].name)
    ensures OutputItemCount(OutputErrorChecked(step, compute).items, step.outputs[i].name) == 0
  {
    var n := step.outputs[i].name;
    var user := ComputeStream(compute);
    var checked := OutputErrorChecked(step, compute);
    assert checked == CheckUserEvents(step, user.userEvents, user.userEnd, {});
    CheckUserEventsItems(step, user.userEvents, user.userEnd, {});
    forall e | e in checked.items
      ensures !(e.YieldedOutput? && e.outputName == n)
    {
      if e !in user.userEvents {
        var o :| o in step.outputs && RequiredNothing(o) && e == YieldedOutput(o.name, NoneValue);
        var j :| 0 <= j < |step.outputs| && step.outputs[j] == o;
        assert OutputNames(step.outputs)[j] != OutputNames(step.outputs)[i];
      }
    }
    OutputItemCountZero(checked.items, n);
  }

  /** The user event at position i is an output the checker must reject: it
      names no declared output, or a name seen before the sequence started
      or yielded earlier in it. */
  predicate RejectedAt(step: Step, events: seq<UserEvent>, seen: set<string>, i: int)
    requires 0 <= i < |events|
  {
    && events[i].YieldedOutput?
    && (|| !HasStepOutput(step, events[i].outputName)
        || events[i].outputName in seen
        || events[i].outputName in OutputNamesOf(events[..i]))
  }

  lemma OutputNamesOfCons(e: UserEvent, events: seq<UserEvent>)
    ensures OutputNamesOf([e] + events) == (if e.YieldedOutput? then {e.outputName} else {}) + OutputNamesOf(events)
  {
    assert forall x | x in [e] + events :: x == e || x in events;
  }

  /** Shifting the sequence by one event while adding that event's name to
      the seen set does not change which later events are rejected. */
  lemma RejectedAtShift(step: Step, events: seq<UserEvent>, seen: set<string>, j: int)
    requires 0 <= j < |events| - 1
    ensures RejectedAt(step, events, seen, j + 1)
        <==> RejectedAt(step, events[1..], SeenAfter(events[0], seen), j)
  {
    assert events[..j + 1] == [events[0]] + events[1..][..j];
    OutputNamesOfCons(events[0], events[1..][..j]);
  }

  /** The checker stops at the first rejected output: everything before it
      is passed on unchanged, the rejected output itself is not, and the
      sequence ends in InvariantViolation. */
  lemma {:induction false} CheckerStopsAtFirstRejected(
    step: Step, events: seq<UserEvent>, end: GeneratorEnd, seen: set<string>, i: int)
    requires 0 <= i < |events| && RejectedAt(step, events, seen, i)
    requires forall j | 0 <= j < i :: !RejectedAt(step, events, seen, j)
    ensures CheckUserEvents(step, events, end, seen) == CheckedSequence(events[..i], InvariantViolation)
    decreases |events|
  {
    if i == 0 {
      assert events[..0] == [];
    } else {
      assert !RejectedAt(step, events, seen, 0);
      assert events[..0] == [];
      var seen' := SeenAfter(events[0], seen);
      forall j | 0 <= j < i - 1
        ensures !RejectedAt(step, events[1..], seen', j)
      {
        RejectedAtShift(step, events, seen, j);
      }
      RejectedAtShift(step, events, seen, i - 1);
      CheckerStopsAtFirstRejected(step, events[1..], end, seen', i - 1);
      assert events[..i] == [events[0]] + events[1..][..i - 1];
    }
  }

  /** The seen set after the checker passes one event on. */
  function SeenAfter(e: UserEvent, seen: set<string>): set<string> {
    if e.YieldedOutput? then seen + {e.outputName} else seen
  }

  /** When no output is rejected and the compute function raises, every
      user event is passed on unchanged and in order, and the sequence ends
      with the compute boundary's verdict. */
  lemma {:induction false} CheckerPassesUnrejectedRaised(step: Step, events: seq<UserEvent>, raised: Raised, seen: set<string>)
    requires forall j | 0 <= j < |events| :: !RejectedAt(step, events, seen, j)
    ensures CheckUserEvents(step, events, RaisedAt(raised), seen)
         == CheckedSequence(events, Guarded(StepExecutionError, true, raised))
    decreases |events|
  {
    if |events| > 0 {
      UnrejectedTail(step, events, seen);
      CheckerPassesUnrejectedRaised(step, events[1..], raised, SeenAfter(events[0], seen));
      assert [events[0]] + events[1..] == events;
    }
  }

  /** When no output is rejected and the compute function is exhausted,
      every user event is passed on unchanged and in order, followed by the
      completion pass run with every yielded output counted as seen. */
  lemma {:induction false} CheckerPassesUnrejected(step: Step, events: seq<UserEvent>, seen: set<string>)
    requires forall j | 0 <= j < |events| :: !RejectedAt(step, events, seen, j)
    ensures
      var c := CompleteOutputs(step, step.outputs, seen + OutputNamesOf(events));
      CheckUserEvents(step, events, Exhausted, seen) == CheckedSequence(events + c.items, c.end)
    decreases |events|
  {
    if |events| == 0 {
      assert seen + OutputNamesOf(events) == seen;
    } else {
      var seen' := SeenAfter(events[0], seen);
      var c := CompleteOutputs(step, step.outputs, seen + OutputNamesOf(events));
      var rest := CheckUserEvents(step, events[1..], Exhausted, seen');
      assert rest == CheckedSequence(events[1..] + c.items, c.end) by {
        UnrejectedTail(step, events, seen);
        CheckerPassesUnrejected(step, events[1..], seen');
        SeenAfterNames(events, seen);
      }
      assert CheckUserEvents(step, events, Exhausted, seen) == Prepend(events[0], rest) by {
        UnrejectedTail(step, events, seen);
        CheckUserEventsCons(step, events, Exhausted, seen);
      }
      assert [events[0]] + (events[1..] + c.items) == events + c.items;
    }
  }

  /** If no event of a sequence is rejected, its head is passed on and no
      event of its tail is rejected once the head's name is seen. */
  lemma UnrejectedTail(step: Step, events: seq<UserEvent>, seen: set<string>)
    requires |events| > 0
    requires forall j | 0 <= j < |events| :: !RejectedAt(step, events, seen, j)
    ensures events[0].YieldedOutput? ==> HasStepOutput(step, events[0].outputName) && events[0].outputName !in seen
    ensures forall j | 0 <= j < |events| - 1 ::
      !RejectedAt(step, events[1..], SeenAfter(events[0], seen), j)
  {
    assert events[..0] == [];
    assert !RejectedAt(step, events, seen, 0);
    var seen' := SeenAfter(events[0], seen);
    forall j | 0 <= j < |events| - 1
      ensures !RejectedAt(step, events[1..], seen', j)
    {
      RejectedAtShift(step, events, seen, j);
    }
  }

  lemma SeenAfterNames(events: seq<UserEvent>, seen: set<string>)
    requires |events| > 0
    ensures SeenAfter(events[0], seen) + OutputNamesOf(events[1..]) == seen + OutputNamesOf(events)
  {
    assert events == [events[0]] + events[1..];
    OutputNamesOfCons(events[0], events[1..]);
  }

  /** A user event that is not rejected is passed on in front of what the
      checker makes of the rest. */
  lemma CheckUserEventsCons(step: Step, events: seq<UserEvent>, end: GeneratorEnd, seen: set<string>)
    requires |events| > 0
    requires events[0].YieldedOutput? ==> HasStepOutput(step, events[0].outputName) && events[0].outputName !in seen
    ensures CheckUserEvents(step, events, end, seen)
         == Prepend(events[0], CheckUserEvents(step, events[1..], end, SeenAfter(events[0], seen)))
  {
  }

  /** A name among the output events is counted at least once. */
  lemma {:induction false} NamedOutputCounted(items: seq<UserEvent>, n: string)
    requires n in OutputNamesOf(items)
    ensures OutputItemCount(items, n) >= 1
    decreases |items|
  {
    if !(items[0].YieldedOutput? && items[0].outputName == n) {
      var e :| e in items && e.YieldedOutput? && e.outputName == n;
      assert e in items[1..];
      NamedOutputCounted(items[1..], n);
    }
  }

  /** With unique declared names, the output the completion pass reports
      missing is not among the implicit outputs it passed on before. */
  lemma {:induction false} CompleteOutputsMissingUnlisted(step: Step, outs: seq<StepOutputDef>, seen: set<string>)
    requires Distinct(OutputNames(outs))
    ensures var r := CompleteOutputs(step, outs, seen);
      r.end.MissingOutput? ==> OutputItemCount(r.items, r.end.missingName) == 0
    decreases |outs|
  {
    if |outs| > 0 {
      var o := outs[0];
      var rest := CompleteOutputs(step, outs[1..], seen);
      assert Distinct(OutputNames(outs[1..])) by {
        assert forall i | 0 <= i < |outs| - 1 :: OutputNames(outs[1..])[i] == OutputNames(outs)[i + 1];
      }
      CompleteOutputsMissingUnlisted(step, outs[1..], seen);
      if o.name !in seen && !o.optional && IsNothing(o.dagsterType) && rest.end.MissingOutput? {
        assert o.name !in OutputNames(outs[1..]) by {
          assert forall i | 0 <= i < |outs| - 1 :: OutputNames(outs[1..])[i] == OutputNames(outs)[i + 1];
          assert OutputNames(outs)[0] == o.name;
        }
        OutputItemCountCons(YieldedOutput(o.name, NoneValue), rest.items, rest.end.missingName);
      }
    }
  }

  /** A MissingOutput end names a declared required output whose type is not
      Nothing, and that output was never passed on. */
  lemma {:induction false} CheckUserEventsMissing(step: Step, events: seq<UserEvent>, end: GeneratorEnd, seen: set<string>)
    requires WellFormed(step)
    ensures var r := CheckUserEvents(step, events, end, seen);
      r.end.MissingOutput? ==>
        && OutputItemCount(r.items, r.end.missingName) == 0
        && exists o | o in step.outputs :: RequiredValue(o) && o.name == r.end.missingName
    decreases |events|
  {
    if |events| == 0 {
      if end.Exhausted? {
        CompleteOutputsMissing(step, step.outputs, seen);
        CompleteOutputsMissingUnlisted(step, step.outputs, seen);
      }
    } else {
      var e := events[0];
      var seen' := SeenAfter(e, seen);
      if !e.YieldedOutput? || (HasStepOutput(step, e.outputName) && e.outputName !in seen) {
        var rest := CheckUserEvents(step, events[1..], end, seen');
        CheckUserEventsMissing(step, events[1..], end, seen');
        if rest.end.MissingOutput? {
          OutputItemCountCons(e, rest.items, rest.end.missingName);
        }
      }
    }
  }
}

=== FILE: persistence.dfy ===
/** Output persistence (execute_step.py `_set_objects` and
    `_materializations_to_events`): each output is written through exactly
    one backend, an output manager or intermediate storage. */
module Persistence {
  import opened StepModel
  import opened Events
  import opened ErrorBoundary
  import opened Collaborators

  /** An item is accepted as a materialization: output managers may only
      hand back asset materializations, materializers may also hand back the
      legacy kind. */
  predicate Accepted(item: ReturnedItem, acceptLegacy: bool) {
    item.ReturnedMaterialization? && (acceptLegacy || item.item.AssetMaterialization?)
  }

  /** Emits one materialization event per item handed back, in order. The
      first item that is not accepted raises InvariantViolation before its
      event; a generator that raises after its items escapes unwrapped,
      since no error boundary encloses this iteration. */
  function ItemsToEvents(items: seq<ReturnedItem>, end: GeneratorEnd, acceptLegacy: bool): (r: Stream)
    ensures |r.events| <= |items|
    ensures forall i | 0 <= i < |r.events| ::
      Accepted(items[i], acceptLegacy) && r.events[i] == StepMaterializationEvent(items[i].item)
    ensures r.outcome == InvariantViolation <==> |r.events| < |items|
    ensures r.outcome == InvariantViolation ==> !Accepted(items[|r.events|], acceptLegacy)
    ensures r.outcome == Success <==> |r.events| == |items| && end.Exhausted?
    ensures r.outcome != Success && r.outcome != InvariantViolation ==> end.RaisedAt? && r.outcome == Uncaught(end.raised)
    decreases |items|
  {
    if |items| == 0 then
      if end.Exhausted? then Emit([]) else Fail(Uncaught(end.raised))
    else if !Accepted(items[0], acceptLegacy) then Fail(InvariantViolation)
    else
      var rest := ItemsToEvents(items[1..], end, acceptLegacy);
      var r := Then(Emit([StepMaterializationEvent(items[0].item)]), rest);
      assert forall i | 1 <= i < |r.events| :: r.events[i] == rest.events[i - 1];
      r
  }

  /** The materializations an output manager handed back, as events: None
      gives none, a single plain value is taken as a one-item generator. */
  function MaterializationsToEvents(ret: ManagerReturn): (r: Stream)
    requires !ret.ManagerRaised?
    ensures forall e | e in r.events :: e.StepMaterializationEvent? && e.materialization.AssetMaterialization?
    ensures ret.ManagerReturnedNone? ==> r == Emit([])
    ensures ret.ManagerReturnedValue? ==>
      if Accepted(ret.single, false) then r == Emit([StepMaterializationEvent(ret.single.item)])
      else r == Fail(InvariantViolation)
    ensures ret.ManagerGenerator? ==> r == ItemsToEvents(ret.managerItems, ret.managerEnd, false)
  {
    match ret
    case ManagerReturnedNone => Emit([])
    case ManagerReturnedValue(single) => ItemsToEvents([single], Exhausted, false)
    case ManagerGenerator(items, end) => ItemsToEvents(items, end, false)
  }

  /** The SET_ASSET operation the output-manager path records, keyed by the
      output handle and carrying the manager key and output metadata. */
  function SetAssetEvent(o: StepOutputDef, handle: StepOutputHandle): Event {
    AssetStoreOpEvent(AssetStoreOperation(SetAsset, handle, Some(AssetStoreHandle(o.managerKey, o.metadata)), NoneValue))
  }

  /** Persists one output value through the backend configuration selects
      for its handle. The output-manager path emits the manager's
      materializations and then exactly one SET_ASSET event; the
      intermediate-storage path calls the store once and emits one
      object-store event exactly when the store returned an operation
      record. Neither backend call is inside an error boundary. */
  function SetObjects(env: Env, o: StepOutputDef, handle: StepOutputHandle, value: Value, version: Version): (r: Stream)
    ensures forall e | e in r.events :: e.StepMaterializationEvent? || IsStoreEvent(e)
    ensures !r.outcome.TypeCheckFailed? && !r.outcome.MissingOutput? && !r.outcome.UserCodeError?
    ensures env.usesOutputManager(handle) && r.outcome == Success ==>
      && |r.events| > 0 && Last(r.events) == SetAssetEvent(o, handle)
      && forall i | 0 <= i < |r.events| - 1 :: r.events[i].StepMaterializationEvent?
    ensures !env.usesOutputManager(handle) ==>
      && |r.events| <= 1
      && (forall e | e in r.events :: e.ObjectStoreOpEvent? && e.valueName == handle.outputName)
      && (|r.events| == 1 <==> env.setIntermediate(o.dagsterType, handle, value, version).StoreRecorded?)
    ensures env.usesOutputManager(handle) ==>
      var ret := env.handleOutput(o.managerKey, handle, value);
      && (ret.ManagerRaised? ==> r == Fail(Uncaught(ret.managerRaised)))
      && (!ret.ManagerRaised? ==>
            var mats := MaterializationsToEvents(ret);
            && |mats.events| <= |r.events|
            && r.events[..|mats.events|] == mats.events
            && (r.outcome == Success <==> mats.outcome == Success)
            && (mats.outcome != Success ==> r == mats)
            && (mats.outcome == Success ==> r.events == mats.events + [SetAssetEvent(o, handle)]))
    ensures !env.usesOutputManager(handle) ==>
      var stored := env.setIntermediate(o.dagsterType, handle, value, version);
      && (stored.StoreRaised? ==> r == Fail(Uncaught(stored.storeRaised)))
      && (stored.StoreRecorded? ==> r == Emit([ObjectStoreOpEvent(stored.record, handle.outputName)]))
      && (stored.StoreReturnedOther? ==> r == Emit([]))
  {
    if env.usesOutputManager(handle) then
      var ret := env.handleOutput(o.managerKey, handle, value);
      if ret.ManagerRaised? then Fail(Uncaught(ret.managerRaised))
      else
        var mats := MaterializationsToEvents(ret);
        var r := Then(mats, Emit([SetAssetEvent(o, handle)]));
        assert mats.outcome == Success ==> forall i | 0 <= i < |r.events| - 1 :: r.events[i] == mats.events[i];
        r
    else
      match env.setIntermediate(o.dagsterType, handle, value, version)
      case StoreRaised(raised) => Fail(Uncaught(raised))
      case StoreRecorded(record) => Emit([ObjectStoreOpEvent(record, handle.outputName)])
      case StoreReturnedOther => Emit([])
  }

  /** How many SET_ASSET-style asset-store events a sequence holds. */
  function AssetStoreEventCount(events: seq<Event>): nat {
    if |events| == 0 then 0
    else (if events[0].AssetStoreOpEvent? then 1 else 0) + AssetStoreEventCount(events[1..])
  }

  lemma {:induction false} AssetStoreEventCountNone(events: seq<Event>)
    requires forall i | 0 <= i < |events| :: !events[i].AssetStoreOpEvent?
    ensures AssetStoreEventCount(events) == 0
    decreases |events|
  {
    if |events| > 0 {
      AssetStoreEventCountNone(events[1..]);
    }
  }

  lemma {:induction false} AssetStoreEventCountLast(events: seq<Event>)
    requires |events| > 0
    ensures AssetStoreEventCount(events)
         == AssetStoreEventCount(events[..|events| - 1]) + (if Last(events).AssetStoreOpEvent? then 1 else 0)
    decreases |events|
  {
    if |events| > 1 {
      AssetStoreEventCountLast(events[1..]);
      assert events[1..][..|events| - 2] == events[..|events| - 1][1..];
    }
  }

  /** On the output-manager path a completed write records exactly one
      asset-store operation, after one materialization event per item the
      manager handed back: none for None, one for a single returned value. */
  lemma ManagerPathSetsAssetOnce(env: Env, o: StepOutputDef, handle: StepOutputHandle, value: Value, version: Version)
    requires env.usesOutputManager(handle)
    requires SetObjects(env, o, handle, value, version).outcome == Success
    ensures var r := SetObjects(env, o, handle, value, version);
      && AssetStoreEventCount(r.events) == 1
      && Last(r.events).assetOperation.assetOp == SetAsset
      && Last(r.events).assetOperation.assetHandle == handle
    ensures var ret := env.handleOutput(o.managerKey, handle, value);
      && (ret.ManagerGenerator? ==> |SetObjects(env, o, handle, value, version).events| == |ret.managerItems| + 1)
      && (ret.ManagerReturnedValue? ==> |SetObjects(env, o, handle, value, version).events| == 2)
      && (ret.ManagerReturnedNone? ==> SetObjects(env, o, handle, value, version).events == [SetAssetEvent(o, handle)])
  {
    var r := SetObjects(env, o, handle, value, version);
    AssetStoreEventCountLast(r.events);
    AssetStoreEventCountNone(r.events[..|r.events| - 1]);
  }

  /** The output-manager path never calls intermediate storage: whatever the
      store would do, the events and outcome are the same. */
  lemma ManagerPathIgnoresStore(
    env: Env, store: (DagsterType, StepOutputHandle, Value, Version) -> StoreReturn,
    o: StepOutputDef, handle: StepOutputHandle, value: Value, version: Version)
    requires env.usesOutputManager(handle)
    ensures SetObjects(env.(setIntermediate := store), o, handle, value, version) == SetObjects(env, o, handle, value, version)
  {
  }

  /** The intermediate-storage path never calls an output manager. */
  lemma StorePathIgnoresManager(
    env: Env, manager: (string, StepOutputHandle, Value) -> ManagerReturn,
    o: StepOutputDef, handle: StepOutputHandle, value: Value, version: Version)
    requires !env.usesOutputManager(handle)
    ensures SetObjects(env.(handleOutput := manager), o, handle, value, version) == SetObjects(env, o, handle, value, version)
  {
  }

  /** The intermediate-storage path calls the store once, with exactly this
      output's type, handle, value and version: any store that agrees on
      that one call gives the same result. */
  lemma StorePathCallsStoreOnce(
    env: Env, store: (DagsterType, StepOutputHandle, Value, Version) -> StoreReturn,
    o: StepOutputDef, handle: StepOutputHandle, value: Value, version: Version)
    requires !env.usesOutputManager(handle)
    requires store(o.dagsterType, handle, value, version) == env.setIntermediate(o.dagsterType, handle, value, version)
    ensures SetObjects(env.(setIntermediate := store), o, handle, value, version) == SetObjects(env, o, handle, value, version)
  {
  }
}

=== FILE: properties.dfy ===
/** Properties of a whole step attempt, as the event log's consumers rely on
    them: which outputs are reported, in which order inputs are checked,
    what a failed input check rules out, how the compute function's
    control-flow signals surface, and what a missing output names. */
module StepProperties {
  import opened StepModel
  import opened Events
  import opened ErrorBoundary
  import opened Collaborators
  import opened InputLoading
  import opened OutputChecker
  import opened Sequencer

  /** The events before the input checks: the framing event and the input
      loading events. */
  function Prelude(step: Step, env: Env, priorAttempts: int): seq<Event> {
    [FramingEvent(priorAttempts)] + ResolveInputs(env, step.inputs).loadEvents
  }

  /** The stages of a step attempt: the prelude, then the input checks, and
      only when all of them pass, the compute stage. */
  lemma ExecuteStepStages(step: Step, env: Env, priorAttempts: int, durationMs: nat)
    ensures var r := ExecuteStep(step, env, priorAttempts, durationMs);
      var inputs := InputStage(step, env);
      var rest := ComputeStage(step, env, durationMs);
      && (inputs.outcome == Success ==>
            r.events == Prelude(step, env, priorAttempts) + inputs.events + rest.events && r.outcome == rest.outcome)
      && (inputs.outcome != Success ==>
            r.events == Prelude(step, env, priorAttempts) + inputs.events && r.outcome == inputs.outcome)
  {
    var framing := FramingEvent(priorAttempts);
    var loads := ResolveInputs(env, step.inputs).loadEvents;
    var inputs := InputStage(step, env);
    var rest := ComputeStage(step, env, durationMs);
    assert ExecuteStep(step, env, priorAttempts, durationMs)
        == Then(Emit([framing]), Then(Emit(loads), Then(inputs, rest)));
    ComposeStages(framing, loads, inputs, rest);
  }

  lemma ComposeStages(framing: Event, loads: seq<Event>, inputs: Stream, rest: Stream)
    ensures var r := Then(Emit([framing]), Then(Emit(loads), Then(inputs, rest)));
      && (inputs.outcome == Success ==>
            r.events == [framing] + loads + inputs.events + rest.events && r.outcome == rest.outcome)
      && (inputs.outcome != Success ==>
            r.events == [framing] + loads + inputs.events && r.outcome == inputs.outcome)
  {
    assert [framing] + (loads + (inputs.events + rest.events)) == [framing] + loads + inputs.events + rest.events;
    assert [framing] + (loads + inputs.events) == [framing] + loads + inputs.events;
  }

  /** The stages after the input checks: the processed items, and only when
      all of them went through, the checked sequence's end and on a normal
      end the success event. */
  lemma ComputeStageStages(step: Step, env: Env, durationMs: nat)
    ensures var r := ComputeStage(step, env, durationMs);
      var checked := CheckedCompute(step, env);
      var processed := ProcessItems(step, env, checked.items);
      && (processed.outcome == Success && checked.end == Success ==>
            r.events == processed.events + [StepSuccessEvent(durationMs)] && r.outcome == Success)
      && (processed.outcome == Success && checked.end != Success ==>
            r.events == processed.events && r.outcome == checked.end)
      && (processed.outcome != Success ==> r == processed)
  {
  }

  lemma PreludeHasNoChecks(step: Step, env: Env, priorAttempts: int)
    ensures forall e | e in Prelude(step, env, priorAttempts) :: !IsCheckEvent(e)
  {
    var loads := ResolveInputs(env, step.inputs).loadEvents;
    forall e | e in Prelude(step, env, priorAttempts)
      ensures !IsCheckEvent(e)
    {
      if e != FramingEvent(priorAttempts) {
        assert e in loads;
      }
    }
  }

  /** Each name's step-output events all come from the processed items. */
  lemma {:induction false} StepOutputCount(step: Step, env: Env, priorAttempts: int, durationMs: nat, n: string)
    ensures var r := ExecuteStep(step, env, priorAttempts, durationMs);
      var processed := ProcessItems(step, env, CheckedCompute(step, env).items);
      OutputEventCount(r.events, n)
        == if InputStage(step, env).outcome == Success then OutputEventCount(processed.events, n) else 0
  {
    ExecuteStepStages(step, env, priorAttempts, durationMs);
    ComputeStageStages(step, env, durationMs);
    PreludeHasNoChecks(step, env, priorAttempts);
    var checked := CheckedCompute(step, env);
    CountFromStages(Prelude(step, env, priorAttempts), InputStage(step, env), ComputeStage(step, env, durationMs),
                    ProcessItems(step, env, checked.items), checked.end, durationMs,
                    ExecuteStep(step, env, priorAttempts, durationMs), n);
  }

  /** The count argument over the stages of an attempt: the prelude and the
      input checks hold no step-output events, and the compute stage adds at
      most a success event to the processed items. */
  lemma CountFromStages(pre: seq<Event>, inputs: Stream, rest: Stream, processed: Stream, end: Outcome,
                        durationMs: nat, r: Stream, n: string)
    requires forall e | e in pre :: !IsCheckEvent(e)
    requires forall e | e in inputs.events :: e.StepInputEvent?
    requires inputs.outcome == Success ==> r.events == pre + inputs.events + rest.events
    requires inputs.outcome != Success ==> r.events == pre + inputs.events
    requires processed.outcome == Success && end == Success ==> rest.events == processed.events + [StepSuccessEvent(durationMs)]
    requires processed.outcome == Success && end != Success ==> rest.events == processed.events
    requires processed.outcome != Success ==> rest == processed
    ensures OutputEventCount(r.events, n) == if inputs.outcome == Success then OutputEventCount(processed.events, n) else 0
  {
    var front := pre + inputs.events;
    assert forall e | e in front :: !e.StepOutputEvent?;
    if inputs.outcome != Success {
      OutputEventCountNone(front, n);
    } else {
      var tail: seq<Event> := if rest.events == processed.events then [] else [StepSuccessEvent(durationMs)];
      assert r.events == front + (processed.events + tail);
      StagedCount(front, processed.events, tail, n);
    }
  }

  /** Step-output events counted across stages come only from the middle
      stage when the others hold none. */
  lemma StagedCount(front: seq<Event>, middle: seq<Event>, tail: seq<Event>, n: string)
    requires forall e | e in front :: !e.StepOutputEvent?
    requires forall e | e in tail :: !e.StepOutputEvent?
    ensures OutputEventCount(front + (middle + tail), n) == OutputEventCount(middle, n)
  {
    OutputEventCountAppend(front, middle + tail, n);
    OutputEventCountNone(front, n);
    OutputEventCountAppend(middle, tail, n);
    OutputEventCountNone(tail, n);
  }

  /** Every step-output event is for an output the step declares. */
  lemma OutputEventsDeclared(step: Step, env: Env, priorAttempts: int, durationMs: nat, n: string)
    requires OutputEventCount(ExecuteStep(step, env, priorAttempts, durationMs).events, n) > 0
    ensures HasStepOutput(step, n)
  {
    var checked := CheckedCompute(step, env);
    StepOutputCount(step, env, priorAttempts, durationMs, n);
    OutputItemCountPositive(checked.items, n);
    var e :| e in checked.items && e.YieldedOutput? && e.outputName == n;
  }

  /** With unique declared names, a step attempt reports each output at
      most once, and a successful attempt reports every required output
      exactly once (an unproduced required Nothing output by its implicit
      value). */
  lemma OutputsReportedOnce(step: Step, env: Env, priorAttempts: int, durationMs: nat, n: string)
    requires WellFormed(step)
    ensures OutputEventCount(ExecuteStep(step, env, priorAttempts, durationMs).events, n) <= 1
    ensures ExecuteStep(step, env, priorAttempts, durationMs).outcome == Success ==>
      forall o | o in step.outputs && !o.optional :: OutputEventCount(ExecuteStep(step, env, priorAttempts, durationMs).events, o.name) == 1
  {
    var r := ExecuteStep(step, env, priorAttempts, durationMs);
    var checked := CheckedCompute(step, env);
    var processed := ProcessItems(step, env, checked.items);
    StepOutputCount(step, env, priorAttempts, durationMs, n);
    if r.outcome == Success {
      ExecuteStepStages(step, env, priorAttempts, durationMs);
      ComputeStageStages(step, env, durationMs);
      assert processed.outcome == Success && checked.end == Success;
      forall o | o in step.outputs && !o.optional
        ensures OutputEventCount(r.events, o.name) == 1
      {
        StepOutputCount(step, env, priorAttempts, durationMs, o.name);
        NamedOutputCounted(checked.items, o.name);
      }
    }
  }

  /** With unique declared names, an optional output that the compute
      function never yields is never reported: the completion pass skips
      it, and no implicit output carries its name. */
  lemma UnyieldedOptionalUnreported(step: Step, env: Env, priorAttempts: int, durationMs: nat, i: int)
    requires WellFormed(step)
    requires 0 <= i < |step.outputs| && step.outputs[i].optional
    requires forall e | e in ComputeStream(env.compute(EvaluatedInputs(step, env))).userEvents ::
      !(e.YieldedOutput? && e.outputName == step.outputs[i].name)
    ensures OutputEventCount(ExecuteStep(step, env, priorAttempts, durationMs).events, step.outputs[i].name) == 0
  {
    var n := step.outputs[i].name;
    var checked := CheckedCompute(step, env);
    UnyieldedOptionalNotPassed(step, env.compute(EvaluatedInputs(step, env)), i);
    StepOutputCount(step, env, priorAttempts, durationMs, n);
    assert OutputEventCount(ProcessItems(step, env, checked.items).events, n) <= OutputItemCount(checked.items, n);
  }

  /** Input labels of a staged sequence come from its middle stage only. */
  lemma StageLabels(pre: seq<Event>, ins: seq<Event>, rest: seq<Event>)
    requires forall e | e in pre :: !e.StepInputEvent?
    requires forall e | e in rest :: !e.StepInputEvent?
    ensures InputLabels(pre + ins + rest) == InputLabels(ins)
    ensures InputLabels(pre + ins) == InputLabels(ins)
  {
    InputLabelsNone(pre);
    InputLabelsNone(rest);
    InputLabelsAppend(pre, ins);
    InputLabelsAppend(pre + ins, rest);
  }

  /** The step-input labels of an attempt are those of its input stage. */
  lemma ExecuteStepInputLabels(step: Step, env: Env, priorAttempts: int, durationMs: nat)
    ensures InputLabels(ExecuteStep(step, env, priorAttempts, durationMs).events) == InputLabels(InputStage(step, env).events)
  {
    var inputs := InputStage(step, env);
    var rest := ComputeStage(step, env, durationMs);
    var pre := Prelude(step, env, priorAttempts);
    ExecuteStepStages(step, env, priorAttempts, durationMs);
    PreludeHasNoChecks(step, env, priorAttempts);
    StageLabels(pre, inputs.events, rest.events);
  }

  /** A step attempt checks the loaded inputs in declaration order: the
      step-input labels only ever name loaded (non-Nothing) inputs; with
      unique input names they are a prefix of the loaded input names, and
      all of them when the attempt succeeds. */
  lemma InputsCheckedInOrder(step: Step, env: Env, priorAttempts: int, durationMs: nat)
    ensures var labels := InputLabels(ExecuteStep(step, env, priorAttempts, durationMs).events);
      forall k | k in labels :: k in LoadedInputNames(step.inputs)
    ensures var labels := InputLabels(ExecuteStep(step, env, priorAttempts, durationMs).events);
      WellFormed(step) ==>
        |labels| <= |LoadedInputNames(step.inputs)| && labels == LoadedInputNames(step.inputs)[..|labels|]
    ensures WellFormed(step) && ExecuteStep(step, env, priorAttempts, durationMs).outcome == Success ==>
      InputLabels(ExecuteStep(step, env, priorAttempts, durationMs).events) == LoadedInputNames(step.inputs)
  {
    var r := ExecuteStep(step, env, priorAttempts, durationMs);
    var inputs := InputStage(step, env);
    ExecuteStepInputLabels(step, env, priorAttempts, durationMs);
    ExecuteStepStages(step, env, priorAttempts, durationMs);
    LabelsPrefix(InputLabels(r.events), Keys(EvaluatedInputs(step, env)), LoadedInputNames(step.inputs),
                 |inputs.events|, WellFormed(step), r.outcome == Success);
  }

  /** Labels that are a prefix of a dictionary's keys, all of them on
      success, compared with the names the keys come from. */
  lemma LabelsPrefix(labels: seq<string>, keys: seq<string>, loaded: seq<string>, n: nat, unique: bool, success: bool)
    requires n <= |keys| && labels == keys[..n]
    requires forall k | k in keys :: k in loaded
    requires unique ==> keys == loaded
    requires success ==> n == |keys|
    ensures forall k | k in labels :: k in loaded
    ensures unique ==> |labels| <= |loaded| && labels == loaded[..|labels|]
    ensures unique && success ==> labels == loaded
  {
    assert forall k | k in keys[..n] :: k in keys;
  }

  /** With unique input names, an input of the Nothing type is never
      type-checked. */
  lemma NothingInputsNeverChecked(step: Step, env: Env, priorAttempts: int, durationMs: nat, i: int)
    requires WellFormed(step)
    requires 0 <= i < |step.inputs| && IsNothing(step.inputs[i].dagsterType)
    ensures step.inputs[i].name !in InputLabels(ExecuteStep(step, env, priorAttempts, durationMs).events)
  {
    InputsCheckedInOrder(step, env, priorAttempts, durationMs);
    NothingInputsNotLoaded(step.inputs, i);
  }

  /** In a sequence staged as framing and loading events, input events and
      events without input checks, only framing, loading and input events
      precede an input event. */
  lemma StageOrder(framing: Event, loads: seq<Event>, ins: seq<Event>, rest: seq<Event>, i: int, j: int)
    requires forall e | e in loads :: IsStoreEvent(e)
    requires forall e | e in ins :: e.StepInputEvent?
    requires forall e | e in rest :: !e.StepInputEvent?
    requires !framing.StepInputEvent?
    requires var events := [framing] + loads + ins + rest;
      0 <= i < j < |events| && events[j].StepInputEvent?
    ensures var events := [framing] + loads + ins + rest;
      events[i] == framing || IsStoreEvent(events[i]) || events[i].StepInputEvent?
  {
    var events := [framing] + loads + ins + rest;
    var pre := 1 + |loads|;
    assert forall k | pre + |ins| <= k < |events| :: events[k] == rest[k - pre - |ins|] && rest[k - pre - |ins|] in rest;
    assert forall k | 1 <= k < pre :: events[k] == loads[k - 1] && loads[k - 1] in loads;
    if i == 0 {
      assert events[i] == framing;
    } else if i < pre {
      assert events[i] == loads[i - 1] && loads[i - 1] in loads;
    } else {
      assert events[i] == ins[i - pre] && ins[i - pre] in ins;
    }
  }

  /** Every input event comes before every event of the compute stage:
      only the framing event, loading events and other input events
      precede an input event. */
  lemma InputsBeforeCompute(step: Step, env: Env, priorAttempts: int, durationMs: nat, i: int, j: int)
    requires var r := ExecuteStep(step, env, priorAttempts, durationMs);
      0 <= i < j < |r.events| && r.events[j].StepInputEvent?
    ensures var r := ExecuteStep(step, env, priorAttempts, durationMs);
      r.events[i] == FramingEvent(priorAttempts) || IsStoreEvent(r.events[i]) || r.events[i].StepInputEvent?
  {
    AttemptStaged(step, env, priorAttempts, durationMs);
    var inputs := InputStage(step, env);
    StageOrder(FramingEvent(priorAttempts), ResolveInputs(env, step.inputs).loadEvents, inputs.events,
               if inputs.outcome == Success then ComputeStage(step, env, durationMs).events else [], i, j);
  }

  /** The stages of an attempt as one sequence: the framing event, the
      loading events, the input events, and the compute stage's events
      only when every input check passed. */
  lemma AttemptStaged(step: Step, env: Env, priorAttempts: int, durationMs: nat)
    ensures var inputs := InputStage(step, env);
      ExecuteStep(step, env, priorAttempts, durationMs).events
        == [FramingEvent(priorAttempts)] + ResolveInputs(env, step.inputs).loadEvents + inputs.events
           + (if inputs.outcome == Success then ComputeStage(step, env, durationMs).events else [])
  {
    var framing := FramingEvent(priorAttempts);
    var loads := ResolveInputs(env, step.inputs).loadEvents;
    var inputs := InputStage(step, env);
    var rest := ComputeStage(step, env, durationMs);
    assert ExecuteStep(step, env, priorAttempts, durationMs)
        == Then(Emit([framing]), Then(Emit(loads), Then(inputs, rest)));
    ComposeFlat(framing, loads, inputs, rest);
  }

  lemma ComposeFlat(framing: Event, loads: seq<Event>, inputs: Stream, rest: Stream)
    ensures Then(Emit([framing]), Then(Emit(loads), Then(inputs, rest))).events
         == [framing] + loads + inputs.events + (if inputs.outcome == Success then rest.events else [])
  {
    ComposeStages(framing, loads, inputs, rest);
    if inputs.outcome != Success {
      assert [framing] + loads + inputs.events + [] == [framing] + loads + inputs.events;
    }
  }

  /** A failing input check ends the attempt: its event is the last one,
      the attempt ends with the failed type check, and no output was
      reported and no success event emitted. */
  lemma FailedInputCheckEndsStep(step: Step, env: Env, priorAttempts: int, durationMs: nat, j: int)
    requires var r := ExecuteStep(step, env, priorAttempts, durationMs);
      0 <= j < |r.events| && r.events[j].StepInputEvent? && !r.events[j].checkData.passed
    ensures var r := ExecuteStep(step, env, priorAttempts, durationMs);
      && j == |r.events| - 1
      && r.outcome == TypeCheckFailed(r.events[j].checkData.checkLabel)
      && forall k | 0 <= k < |r.events| :: !r.events[k].StepOutputEvent? && !r.events[k].StepSuccessEvent?
  {
    AttemptStaged(step, env, priorAttempts, durationMs);
    var inputs := InputStage(step, env);
    FailedCheckStaged(FramingEvent(priorAttempts), ResolveInputs(env, step.inputs).loadEvents, inputs.events,
                      if inputs.outcome == Success then ComputeStage(step, env, durationMs).events else [],
                      ExecuteStep(step, env, priorAttempts, durationMs), j);
  }

  /** In a staged sequence, a failed input check is the last event, and
      neither an output event nor a success event occurs. */
  lemma FailedCheckStaged(framing: Event, loads: seq<Event>, ins: seq<Event>, rest: seq<Event>, r: Stream, j: int)
    requires forall e | e in loads :: IsStoreEvent(e)
    requires forall e | e in ins :: e.StepInputEvent?
    requires forall e | e in rest :: !e.StepInputEvent?
    requires framing.StepStartEvent? || framing.StepRestartedEvent?
    requires r.events == [framing] + loads + ins + rest
    requires CheckFailureFramed(r) && SuccessLast(r)
    requires 0 <= j < |r.events| && r.events[j].StepInputEvent? && !r.events[j].checkData.passed
    ensures j == |r.events| - 1
    ensures r.outcome == TypeCheckFailed(r.events[j].checkData.checkLabel)
    ensures forall k | 0 <= k < |r.events| :: !r.events[k].StepOutputEvent? && !r.events[k].StepSuccessEvent?
  {
    forall k | 0 <= k < j
      ensures !r.events[k].StepOutputEvent?
    {
      StageOrder(framing, loads, ins, rest, k, j);
    }
    FailedCheckIsLast(r, j);
  }

  lemma FailedCheckIsLast(r: Stream, j: int)
    requires CheckFailureFramed(r) && SuccessLast(r)
    requires 0 <= j < |r.events| && r.events[j].StepInputEvent? && !r.events[j].checkData.passed
    requires forall k | 0 <= k < j :: !r.events[k].StepOutputEvent?
    ensures j == |r.events| - 1
    ensures r.outcome == TypeCheckFailed(r.events[j].checkData.checkLabel)
    ensures forall k | 0 <= k < |r.events| :: !r.events[k].StepOutputEvent? && !r.events[k].StepSuccessEvent?
  {
    assert IsFailedCheck(r.events[j]);
  }

  /** The compute function's control-flow signals pass through its error
      boundary: once every item it yielded was processed, a Failure ends the
      attempt as an explicit failure, a retry request as a retry request,
      and any other exception as a step-execution user-code error. */
  lemma ComputeSignalPassesThrough(
    step: Step, env: Env, priorAttempts: int, durationMs: nat, events: seq<UserEvent>, raised: Raised)
    requires InputStage(step, env).outcome == Success
    requires env.compute(EvaluatedInputs(step, env)) == Generator(UserStream(events, RaisedAt(raised)))
    requires forall j | 0 <= j < |events| :: !RejectedAt(step, events, {}, j)
    ensures CheckedCompute(step, env) == CheckedSequence(events, Guarded(StepExecutionError, true, raised))
    ensures var r := ExecuteStep(step, env, priorAttempts, durationMs);
      var p := ProcessItems(step, env, CheckedCompute(step, env).items);
      && (p.outcome == Success ==>
            && (raised == FailureSignal ==> r.outcome == ExplicitFailure)
            && (raised == RetrySignal ==> r.outcome == RetryRequested)
            && (raised == UserException ==> r.outcome == UserCodeError(StepExecutionError)))
      && (p.outcome != Success ==> r.outcome == p.outcome)
  {
    CheckerPassesUnrejectedRaised(step, events, raised, {});
    ExecuteStepStages(step, env, priorAttempts, durationMs);
    ComputeStageStages(step, env, durationMs);
  }

  /** With unique declared names, a step attempt that ends with a missing
      output names this step and a declared required output whose type is
      not Nothing, and no step-output event for that name was emitted. */
  lemma MissingOutputNamesUnreported(step: Step, env: Env, priorAttempts: int, durationMs: nat)
    requires WellFormed(step)
    ensures var r := ExecuteStep(step, env, priorAttempts, durationMs);
      r.outcome.MissingOutput? ==>
        && r.outcome.stepKey == step.key
        && (exists o | o in step.outputs :: RequiredValue(o) && o.name == r.outcome.missingName)
        && OutputEventCount(r.events, r.outcome.missingName) == 0
  {
    var r := ExecuteStep(step, env, priorAttempts, durationMs);
    if r.outcome.MissingOutput? {
      var checked := CheckedCompute(step, env);
      var processed := ProcessItems(step, env, checked.items);
      ExecuteStepStages(step, env, priorAttempts, durationMs);
      ComputeStageStages(step, env, durationMs);
      assert processed.outcome == Success && checked.end == r.outcome;
      var user := ComputeStream(env.compute(EvaluatedInputs(step, env)));
      CheckUserEventsMissing(step, user.userEvents, user.userEnd, {});
      StepOutputCount(step, env, priorAttempts, durationMs, r.outcome.missingName);
    }
  }

  /** The loader is never consulted for Nothing inputs, so the evaluated
      inputs the compute function receives do not depend on it there. */
  lemma EvaluatedInputsIgnoreNothingLoader(step: Step, env: Env, loader: StepInputDef -> LoadedInput)
    requires forall d | d in step.inputs && !IsNothing(d.dagsterType) :: loader(d) == env.loadInput(d)
    ensures EvaluatedInputs(step, env.(loadInput := loader)) == EvaluatedInputs(step, env)
    ensures ResolveInputs(env.(loadInput := loader), step.inputs).loadEvents == ResolveInputs(env, step.inputs).loadEvents
  {
    ResolveInputsIgnoresNothingLoader(env, loader, step.inputs);
  }
}

=== FILE: scenarios.dfy ===
/** Concrete step attempts worked through end to end. */
module Scenarios {
  import opened StepModel
  import opened Events
  import opened Collaborators
  import opened InputLoading
  import opened TypeChecking
  import opened OutputChecker
  import opened Persistence
  import opened MaterializationWalk
  import opened Sequencer
  import opened StepProperties

  const IntType := DagsterType("Int", ValueKind)

  /** A step `add` with one input `x` and one required output `result`,
      persisted through intermediate storage. */
  const AddStep := Step("add", ["add"], [StepInputDef("x", IntType)],
                        [StepOutputDef("result", IntType, false, "io_manager", [])])

  const StoredResult := ObjectStoreOperation(SetObject, "add.result", Object("int", 2), None)

  function PassingCheck(t: DagsterType, v: Value): PredicateReturn {
    ReturnedTypeCheck(TypeCheck(true, None, []))
  }

  /** Everything goes right: the input loads and passes, the compute
      function yields its one output, and storage records it. */
  function HappyEnv(compute: seq<(string, Value)> -> ComputeReturn): Env {
    Env(PassingCheck,
        (d: StepInputDef) => PlainLoaded(Object("int", 1)),
        compute,
        (h: StepOutputHandle) => None,
        (h: StepOutputHandle) => false,
        (k: string, h: StepOutputHandle, v: Value) => ManagerReturnedNone,
        (t: DagsterType, h: StepOutputHandle, v: Value, ver: Version) => StoreRecorded(StoredResult),
        map[],
        (t: DagsterType, c: string, v: Value) => MaterializerReturned([]))
  }

  function YieldsResult(inputs: seq<(string, Value)>): ComputeReturn {
    Generator(UserStream([YieldedOutput("result", Object("int", 2))], Exhausted))
  }

  const X := Object("int", 1)
  const V := Object("int", 2)
  const InputPassed := StepInputEvent("x", TypeCheckData(true, "x", None, []))
  const OutputPassed := StepOutputEvent(StepOutputHandle("add", "result"), TypeCheckData(true, "result", None, []), None)
  const Stored := ObjectStoreOpEvent(StoredResult, "result")

  /** Input `x` loads as a plain value and passes its check. */
  lemma AddInputsPass()
    ensures EvaluatedInputs(AddStep, HappyEnv(YieldsResult)) == [("x", X)]
    ensures ResolveInputs(HappyEnv(YieldsResult), AddStep.inputs).loadEvents == []
    ensures InputStage(AddStep, HappyEnv(YieldsResult)) == Stream([InputPassed], Success)
  {
    var env := HappyEnv(YieldsResult);
    assert AddStep.inputs[..0] == [];
    assert ResolveInputs(env, AddStep.inputs) == Resolution([], [("x", X)]);
    assert InputNames(AddStep.inputs) == ["x"];
    assert StepInputNamed(AddStep.inputs, "x") == AddStep.inputs[0];
    assert InputCheck(AddStep, env, "x", X) == CheckCompleted(TypeCheck(true, None, []));
    assert TypeCheckedInput(AddStep, env, "x", X) == Stream([InputPassed], Success);
    assert [("x", X)][1..] == [];
    assert CheckInputs(AddStep, env, []) == Emit([]);
  }

  /** The checker passes the one output on and completes normally. */
  lemma AddComputeChecked()
    ensures CheckedCompute(AddStep, HappyEnv(YieldsResult)) == CheckedSequence([YieldedOutput("result", V)], Success)
  {
    var env := HappyEnv(YieldsResult);
    assert OutputNames(AddStep.outputs) == ["result"];
    assert AddStep.outputs[1..] == [];
    assert CompleteOutputs(AddStep, AddStep.outputs, {"result"}) == CheckedSequence([], Success);
    assert [YieldedOutput("result", V)][1..] == [];
    assert HasStepOutput(AddStep, "result");
    var none: set<string> := {};
    assert none + {"result"} == {"result"};
    assert CheckUserEvents(AddStep, [], Exhausted, {"result"}) == CheckedSequence([], Success);
    assert CheckUserEvents(AddStep, [YieldedOutput("result", V)], Exhausted, {})
        == CheckedSequence([YieldedOutput("result", V)], Success);
    assert env.compute(EvaluatedInputs(AddStep, env)) == Generator(UserStream([YieldedOutput("result", V)], Exhausted));
  }

  /** The output passes its check and storage records it; no solid config
      means no materializations. */
  lemma AddOutputStored()
    ensures HasStepOutput(AddStep, "result")
    ensures ProcessItems(AddStep, HappyEnv(YieldsResult), [YieldedOutput("result", V)]) == Stream([OutputPassed, Stored], Success)
  {
    var env := HappyEnv(YieldsResult);
    assert OutputNames(AddStep.outputs) == ["result"];
    assert StepOutputNamed(AddStep.outputs, "result") == AddStep.outputs[0];
    assert Parent(["add"]) == [];
    assert CreateOutputMaterializations(AddStep, env, "result", V) == Emit([]);
    assert EventsForOutput(AddStep, env, "result", V) == Stream([OutputPassed, Stored], Success);
    assert [YieldedOutput("result", V)][1..] == [];
  }

  /** After the input check: the output's events and then success. */
  lemma AddComputeStage()
    ensures ComputeStage(AddStep, HappyEnv(YieldsResult), 5) == Stream([OutputPassed, Stored, StepSuccessEvent(5)], Success)
  {
    AddComputeChecked();
    AddOutputStored();
    ComputeStageStages(AddStep, HappyEnv(YieldsResult), 5);
  }

  /** A first attempt of `add` that succeeds: start, the input check, then
      the output check, the storage record, and success. */
  lemma AddSucceeds()
    ensures ExecuteStep(AddStep, HappyEnv(YieldsResult), 0, 5)
         == Stream([StepStartEvent] + [InputPassed] + [OutputPassed, Stored, StepSuccessEvent(5)], Success)
  {
    AddStagesKnown();
    FirstAttemptFromStages(AddStep, HappyEnv(YieldsResult), 5, [InputPassed],
                           Stream([OutputPassed, Stored, StepSuccessEvent(5)], Success));
  }

  /** The stages of the `add` attempt, each worked out on its own. */
  lemma AddStagesKnown()
    ensures ResolveInputs(HappyEnv(YieldsResult), AddStep.inputs).loadEvents == []
    ensures InputStage(AddStep, HappyEnv(YieldsResult)) == Stream([InputPassed], Success)
    ensures ComputeStage(AddStep, HappyEnv(YieldsResult), 5) == Stream([OutputPassed, Stored, StepSuccessEvent(5)], Success)
  {
    AddInputsPass();
    AddComputeStage();
  }

  /** A first attempt with nothing to load and passing input checks is the
      start event, the input events and the compute stage. */
  lemma FirstAttemptFromStages(step: Step, env: Env, durationMs: nat, ins: seq<Event>, rest: Stream)
    requires ResolveInputs(env, step.inputs).loadEvents == []
    requires InputStage(step, env) == Stream(ins, Success)
    requires ComputeStage(step, env, durationMs) == rest
    ensures ExecuteStep(step, env, 0, durationMs) == Stream([StepStartEvent] + ins + rest.events, rest.outcome)
  {
    ExecuteStepStages(step, env, 0, durationMs);
    assert Prelude(step, env, 0) == [StepStartEvent];
  }

  /** `add` nested inside a composite `outer`, with a materialization spec
      for `result` configured at both levels. */
  const NestedAdd := Step("outer.add", ["outer", "add"], [],
                          [StepOutputDef("result", IntType, false, "io_manager", [])])

  const BothLevels := map[
    ["outer", "add"] := SolidConfig([[("result", "inner.csv")]]),
    ["outer"] := SolidConfig([[("other", "skip.csv")], [("result", "outer.csv")]])]

  function MaterializeToPath(t: DagsterType, config: string, v: Value): MaterializerReturn {
    MaterializerReturned([ReturnedMaterialization(AssetMaterialization(config))])
  }

  /** Both matching specs fire, the inner one first; the spec for another
      output is skipped. */
  lemma NestedSpecsBothFire()
    ensures HasStepOutput(NestedAdd, "result")
    ensures CreateOutputMaterializations(NestedAdd, HappyEnv(YieldsResult).(solidConfigs := BothLevels, materialize := MaterializeToPath), "result", V)
         == Emit([StepMaterializationEvent(AssetMaterialization("inner.csv")),
                  StepMaterializationEvent(AssetMaterialization("outer.csv"))])
  {
    var env := HappyEnv(YieldsResult).(solidConfigs := BothLevels, materialize := MaterializeToPath);
    assert OutputNames(NestedAdd.outputs) == ["result"];
    assert StepOutputNamed(NestedAdd.outputs, "result") == NestedAdd.outputs[0];
    assert Parent(["outer", "add"]) == ["outer"];
    assert Parent(["outer"]) == [];
    var inner := StepMaterializationEvent(AssetMaterialization("inner.csv"));
    var outer := StepMaterializationEvent(AssetMaterialization("outer.csv"));
    assert FireSpec(NestedAdd, env, "result", "inner.csv", V) == Emit([inner]);
    assert FireSpec(NestedAdd, env, "result", "outer.csv", V) == Emit([outer]);
    var innerSpecs: seq<MaterializerSpec> := [[("result", "inner.csv")]];
    var outerSpecs: seq<MaterializerSpec> := [[("other", "skip.csv")], [("result", "outer.csv")]];
    assert innerSpecs[1..] == [];
    assert outerSpecs[1..] == [[("result", "outer.csv")]];
    assert outerSpecs[1..][1..] == [];
    assert LevelEvents(NestedAdd, env, ["outer", "add"], "result", V) == Emit([inner]);
    assert LevelEvents(NestedAdd, env, ["outer"], "result", V) == Emit([outer]);
  }
}

=== FILE: sequencer.dfy ===
/** The per-step event sequence (execute_step.py
    `core_dagster_event_sequence_for_step` and
    `_create_step_events_for_output`): a framing event, the input loading
    events, one checked event per loaded input, the events for every item
    the output checker passes on, and a final success event. */
module Sequencer {
  import opened StepModel
  import opened Events
  import opened Collaborators
  import opened TypeChecking
  import opened InputLoading
  import opened OutputChecker
  import opened Persistence
  import opened MaterializationWalk

  /** Events of a stream that only ever appear between the framing event and
      the success event, and that are not input checks. */
  predicate AfterInputs(events: seq<Event>) {
    forall e | e in events :: IsBodyEvent(e) && !e.StepInputEvent?
  }

  /** How many step-output events a single user event can give rise to. */
  function ItemOutputCount(e: UserEvent, n: string): nat {
    if e.YieldedOutput? && e.outputName == n then 1 else 0
  }

  lemma OutputEventCountSingle(e: Event, n: string)
    ensures OutputEventCount([e], n) == (if e.StepOutputEvent? && e.outputHandle.outputName == n then 1 else 0)
  {
    assert [e][..0] == [];
  }

  /** Appending events that hold no step-output event leaves every count as it is. */
  lemma AppendNoOutputs(a: seq<Event>, b: seq<Event>)
    requires forall e | e in b :: !e.StepOutputEvent?
    ensures forall n :: OutputEventCount(a + b, n) == OutputEventCount(a, n)
  {
    forall n
      ensures OutputEventCount(a + b, n) == OutputEventCount(a, n)
    {
      OutputEventCountAppend(a, b, n);
      OutputEventCountNone(b, n);
    }
  }

  /** Persisting an output and walking its materializations: neither stage
      emits a check event nor ends in a failed check. */
  function PersistOutput(step: Step, env: Env, name: string, value: Value, version: Version): (r: Stream)
    requires HasStepOutput(step, name)
    ensures forall e | e in r.events :: e.StepMaterializationEvent? || IsStoreEvent(e)
    ensures !r.outcome.TypeCheckFailed? && !r.outcome.MissingOutput?
  {
    var handle := StepOutputHandle(step.key, name);
    Then(SetObjects(env, StepOutputNamed(step.outputs, name), handle, value, version),
         CreateOutputMaterializations(step, env, name, value))
  }

  /** A stage holding at most one step-output event, for `name`, followed by
      a stage holding none: `name` is counted once when anything is emitted,
      every other name never. */
  lemma OneOutputThen(first: Stream, second: Stream, name: string)
    requires |first.events| <= 1
    requires forall e | e in first.events :: e.StepOutputEvent? && e.outputHandle.outputName == name
    requires first.outcome == Success ==> |first.events| == 1
    requires forall e | e in second.events :: !e.StepOutputEvent?
    ensures var r := Then(first, second);
      forall n :: OutputEventCount(r.events, n) == (if n == name && |r.events| > 0 then 1 else 0)
  {
    if |first.events| == 1 {
      forall n
        ensures OutputEventCount(first.events, n) == (if n == name then 1 else 0)
      {
        assert first.events == [first.events[0]];
        assert first.events[0] in first.events;
        OutputEventCountSingle(first.events[0], n);
      }
      if first.outcome == Success {
        AppendNoOutputs(first.events, second.events);
      }
    }
  }

  /** The events for one output the compute function produced: its checked
      step-output event first, then (only if the check passed) the
      persistence events, then the materializations. Exactly one
      step-output event, for this name, whenever anything is emitted. */
  function EventsForOutput(step: Step, env: Env, name: string, value: Value): (r: Stream)
    requires HasStepOutput(step, name)
    ensures AfterInputs(r.events)
    ensures |r.events| > 0 ==>
      && r.events[0].StepOutputEvent? && r.events[0].outputHandle == StepOutputHandle(step.key, name)
      && r.events[0].version == env.versions(StepOutputHandle(step.key, name))
    ensures |r.events| > 0 <==> OutputCheck(step, env, name, value).CheckCompleted?
    ensures |r.events| > 0 ==> r.events[0].checkData == CheckData(OutputCheck(step, env, name, value).result, name)
    ensures forall n :: OutputEventCount(r.events, n) == (if n == name && |r.events| > 0 then 1 else 0)
    ensures r.outcome == Success ==> |r.events| > 0 && r.events[0].checkData.passed
    ensures !r.outcome.MissingOutput?
    ensures r.outcome.TypeCheckFailed? ==> r.outcome == TypeCheckFailed(name)
    ensures CheckFailureFramed(r)
  {
    var handle := StepOutputHandle(step.key, name);
    var version := env.versions(handle);
    var checked := TypeCheckedOutput(step, env, name, value, version);
    var persisted := PersistOutput(step, env, name, value, version);
    OutputStages(checked, persisted, handle, version);
    Then(checked, persisted)
  }

  /** What one output's events keep from its two stages: a checked stage
      with at most one step-output event for the handle, and a persistence
      stage with only materialization and store events. */
  lemma OutputStages(checked: Stream, persisted: Stream, handle: StepOutputHandle, version: Version)
    requires |checked.events| <= 1
    requires forall e | e in checked.events ::
      e.StepOutputEvent? && e.outputHandle == handle && e.version == version
    requires checked.outcome == Success <==> |checked.events| == 1 && checked.events[0].checkData.passed
    requires checked.outcome == Success || checked.outcome == TypeCheckFailed(handle.outputName) || checked.outcome.UserCodeError?
    requires CheckFailureFramed(checked)
    requires forall e | e in persisted.events :: e.StepMaterializationEvent? || IsStoreEvent(e)
    requires !persisted.outcome.TypeCheckFailed? && !persisted.outcome.MissingOutput?
    ensures var r := Then(checked, persisted);
      && (|r.events| > 0 <==> |checked.events| == 1)
      && (|r.events| > 0 ==> r.events[0] == checked.events[0])
      && AfterInputs(r.events)
      && (|r.events| > 0 ==> r.events[0].StepOutputEvent? && r.events[0].outputHandle == handle && r.events[0].version == version)
      && (forall n :: OutputEventCount(r.events, n) == (if n == handle.outputName && |r.events| > 0 then 1 else 0))
      && (r.outcome == Success ==> |r.events| > 0 && r.events[0].checkData.passed)
      && !r.outcome.MissingOutput?
      && (r.outcome.TypeCheckFailed? ==> r.outcome == TypeCheckFailed(handle.outputName))
      && CheckFailureFramed(r)
  {
    var r := Then(checked, persisted);
    OneOutputThen(checked, persisted, handle.outputName);
    NoChecksFramed(persisted);
    ThenFramed(checked, persisted);
    if |checked.events| == 1 {
      assert r.events[0] == checked.events[0] && checked.events[0] in checked.events;
    }
  }

  /** The order of one output's events: its step-output event, then, once
      that check passed, the persistence events, then, once persistence
      completed, the materialization walk's events. After a passing check
      the output ends as persistence ends if that fails, and otherwise as
      the walk ends; without a passing check the output is its checked
      stage alone. */
  lemma PerOutputOrder(step: Step, env: Env, name: string, value: Value)
    requires HasStepOutput(step, name)
    ensures var r := EventsForOutput(step, env, name, value);
      var handle := StepOutputHandle(step.key, name);
      var version := env.versions(handle);
      var persisted := SetObjects(env, StepOutputNamed(step.outputs, name), handle, value, version);
      var walked := CreateOutputMaterializations(step, env, name, value);
      && (|r.events| > 0 ==> r.events[0].StepOutputEvent? && r.events[0].outputHandle == handle)
      && (|r.events| > 1 ==> r.events[0].checkData.passed)
      && (|r.events| > 0 && r.events[0].checkData.passed ==>
            && r.events[1..] == (if persisted.outcome == Success then persisted.events + walked.events else persisted.events)
            && r.outcome == (if persisted.outcome == Success then walked.outcome else persisted.outcome))
      && (!(|r.events| > 0 && r.events[0].checkData.passed) ==>
            r == TypeCheckedOutput(step, env, name, value, version))
  {
    var r := EventsForOutput(step, env, name, value);
    var handle := StepOutputHandle(step.key, name);
    var checked := TypeCheckedOutput(step, env, name, value, env.versions(handle));
    if |checked.events| == 1 && checked.events[0].checkData.passed {
      assert r.events[1..] == PersistOutput(step, env, name, value, env.versions(handle)).events;
    }
  }

  /** One item the output checker passed on: an output gets its checked
      event and persistence, a materialization or expectation result its
      one event, and anything else is an invariant violation. */
  function ProcessItem(step: Step, env: Env, e: UserEvent): (r: Stream)
    requires e.YieldedOutput? ==> HasStepOutput(step, e.outputName)
    ensures AfterInputs(r.events)
    ensures forall n :: OutputEventCount(r.events, n) <= ItemOutputCount(e, n)
    ensures r.outcome == Success ==> forall n :: OutputEventCount(r.events, n) == ItemOutputCount(e, n)
    ensures e.YieldedOutput? ==> r == EventsForOutput(step, env, e.outputName, e.outputValue)
    ensures e.YieldedMaterialization? ==> r == Emit([StepMaterializationEvent(e.yieldedMaterialization)])
    ensures e.YieldedExpectation? ==> r == Emit([StepExpectationEvent(e.yieldedExpectation)])
    ensures e.YieldedOther? ==> r == Fail(InvariantViolation)
    ensures !r.outcome.MissingOutput?
    ensures r.outcome.TypeCheckFailed? ==> e.YieldedOutput? && r.outcome == TypeCheckFailed(e.outputName)
    ensures CheckFailureFramed(r)
  {
    match e
    case YieldedOutput(name, value) => EventsForOutput(step, env, name, value)
    case YieldedMaterialization(m) =>
      var r := Emit([StepMaterializationEvent(m)]);
      assert forall n :: OutputEventCount(r.events, n) == 0 by {
        forall n
          ensures OutputEventCount(r.events, n) == 0
        {
          OutputEventCountSingle(StepMaterializationEvent(m), n);
        }
      }
      NoChecksFramed(r);
      r
    case YieldedExpectation(x) =>
      var r := Emit([StepExpectationEvent(x)]);
      assert forall n :: OutputEventCount(r.events, n) == 0 by {
        forall n
          ensures OutputEventCount(r.events, n) == 0
        {
          OutputEventCountSingle(StepExpectationEvent(x), n);
        }
      }
      NoChecksFramed(r);
      r
    case YieldedOther(_) =>
      NoChecksFramed(Fail(InvariantViolation));
      Fail(InvariantViolation)
  }

  /** Every output item names a declared output of the step. */
  predicate ItemsDeclared(step: Step, items: seq<UserEvent>) {
    forall e | e in items && e.YieldedOutput? :: HasStepOutput(step, e.outputName)
  }

  /** The reference for processing a run of items: each item processed on
      its own, in item order. */
  function ProcessedEach(step: Step, env: Env, items: seq<UserEvent>): (parts: seq<Stream>)
    requires ItemsDeclared(step, items)
    ensures |parts| == |items|
  {
    seq(|items|, i requires 0 <= i < |items| => ProcessItem(step, env, items[i]))
  }

  /** The items the output checker passed on, in order, stopping at the
      first one whose processing raises: the run goes through exactly when
      every item does, with every item's events in order, and otherwise ends
      with the first failing item's outcome after the events of the items up
      to and including it. Each output item yields at most one step-output
      event for its name, and exactly one when every item went through. */
  function ProcessItems(step: Step, env: Env, items: seq<UserEvent>): (r: Stream)
    requires ItemsDeclared(step, items)
    ensures AfterInputs(r.events)
    ensures forall n :: OutputEventCount(r.events, n) <= OutputItemCount(items, n)
    ensures r.outcome == Success ==> forall n :: OutputEventCount(r.events, n) == OutputItemCount(items, n)
    ensures !r.outcome.MissingOutput?
    ensures CheckFailureFramed(r)
    ensures RunsAs(r, ProcessedEach(step, env, items))
    decreases |items|
  {
    if |items| == 0 then
      NoChecksFramed(Emit([]));
      Emit([])
    else
      assert items[0] in items;
      assert forall e | e in items[1..] :: e in items;
      var head := ProcessItem(step, env, items[0]);
      var tail := ProcessItems(step, env, items[1..]);
      var r := Then(head, tail);
      ThenFramed(head, tail);
      ProcessItemsCounts(items, head, tail);
      ProcessedEachCons(step, env, items);
      RunsAsCons(ProcessedEach(step, env, items), tail);
      r
  }

  lemma ProcessedEachCons(step: Step, env: Env, items: seq<UserEvent>)
    requires |items| > 0
    requires ItemsDeclared(step, items)
    ensures ItemsDeclared(step, items[1..])
    ensures ProcessedEach(step, env, items)[0] == ProcessItem(step, env, items[0])
    ensures ProcessedEach(step, env, items)[1..] == ProcessedEach(step, env, items[1..])
  {
    var rest := items[1..];
    assert forall e | e in rest :: e in items;
    var whole := ProcessedEach(step, env, items);
    var tail := ProcessedEach(step, env, rest);
    forall i | 0 <= i < |rest|
      ensures whole[i + 1] == tail[i]
    {
      assert rest[i] == items[i + 1];
    }
  }

  /** The count bookkeeping for one step of ProcessItems. */
  lemma ProcessItemsCounts(items: seq<UserEvent>, head: Stream, tail: Stream)
    requires |items| > 0
    requires forall n :: OutputEventCount(head.events, n) <= ItemOutputCount(items[0], n)
    requires head.outcome == Success ==> forall n :: OutputEventCount(head.events, n) == ItemOutputCount(items[0], n)
    requires forall n :: OutputEventCount(tail.events, n) <= OutputItemCount(items[1..], n)
    requires tail.outcome == Success ==> forall n :: OutputEventCount(tail.events, n) == OutputItemCount(items[1..], n)
    ensures forall n :: OutputEventCount(Then(head, tail).events, n) <= OutputItemCount(items, n)
    ensures Then(head, tail).outcome == Success ==>
      forall n :: OutputEventCount(Then(head, tail).events, n) == OutputItemCount(items, n)
  {
    forall n
      ensures OutputEventCount(Then(head, tail).events, n) <= OutputItemCount(items, n)
      ensures Then(head, tail).outcome == Success ==> OutputEventCount(Then(head, tail).events, n) == OutputItemCount(items, n)
    {
      OutputItemCountCons(items[0], items[1..], n);
      assert [items[0]] + items[1..] == items;
      if head.outcome == Success {
        OutputEventCountAppend(head.events, tail.events, n);
      }
    }
  }

  /** The event that opens a step attempt: a restart event carrying the
      number of earlier attempts, or a start event on the first attempt. */
  function FramingEvent(priorAttempts: int): (e: Event)
    ensures e.StepRestartedEvent? <==> priorAttempts > 0
    ensures e.StepRestartedEvent? ==> e.priorAttempts == priorAttempts
    ensures e.StepStartEvent? || e.StepRestartedEvent?
  {
    if priorAttempts > 0 then StepRestartedEvent(priorAttempts) else StepStartEvent
  }

  /** The evaluated inputs the compute function receives. */
  function EvaluatedInputs(step: Step, env: Env): InputMap {
    ResolveInputs(env, step.inputs).inputMap
  }

  /** Type-checks the evaluated inputs in dictionary order: the labels of
      the step-input events are the dictionary's keys up to where checking
      stopped, all of them on success. */
  function InputStage(step: Step, env: Env): (r: Stream)
    ensures forall e | e in r.events :: e.StepInputEvent?
    ensures |r.events| <= |EvaluatedInputs(step, env)|
    ensures InputLabels(r.events) == Keys(EvaluatedInputs(step, env))[..|r.events|]
    ensures var d := EvaluatedInputs(step, env);
      forall i | 0 <= i < |r.events| ::
        && InputCheck(step, env, d[i].0, d[i].1).CheckCompleted?
        && r.events[i] == StepInputEvent(d[i].0, CheckData(InputCheck(step, env, d[i].0, d[i].1).result, d[i].0))
    ensures r.outcome == Success ==> |r.events| == |EvaluatedInputs(step, env)|
    ensures r.outcome == Success || r.outcome.TypeCheckFailed? || r.outcome == UserCodeError(TypeCheckError)
    ensures var d := EvaluatedInputs(step, env);
      r.outcome == UserCodeError(TypeCheckError) ==>
        |r.events| < |d| && InputCheck(step, env, d[|r.events|].0, d[|r.events|].1).CheckRaised?
    ensures CheckFailureFramed(r)
  {
    CheckInputs(step, env, EvaluatedInputs(step, env))
  }

  /** The output checker's view of the compute function's events. */
  function CheckedCompute(step: Step, env: Env): CheckedSequence {
    OutputErrorChecked(step, env.compute(EvaluatedInputs(step, env)))
  }

  /** A stream announces success exactly by its last event, and no other
      event is a success event. */
  predicate SuccessLast(s: Stream) {
    && (s.outcome == Success <==> |s.events| > 0 && Last(s.events).StepSuccessEvent?)
    && (forall i | 0 <= i < |s.events| - 1 :: !s.events[i].StepSuccessEvent?)
  }

  /** No event of the sequence opens a step attempt. */
  predicate NoFraming(events: seq<Event>) {
    forall i | 0 <= i < |events| :: !events[i].StepStartEvent? && !events[i].StepRestartedEvent?
  }

  /** Putting a stage without success events in front keeps SuccessLast. */
  lemma ThenSuccessLast(a: Stream, b: Stream)
    requires forall i | 0 <= i < |a.events| :: !a.events[i].StepSuccessEvent?
    requires SuccessLast(b)
    ensures SuccessLast(Then(a, b))
  {
    var r := Then(a, b);
    if a.outcome == Success {
      forall i | 0 <= i < |r.events| - 1
        ensures !r.events[i].StepSuccessEvent?
      {
        if i >= |a.events| {
          assert r.events[i] == b.events[i - |a.events|];
        }
      }
      if |b.events| > 0 {
        assert Last(r.events) == Last(b.events);
      } else if |a.events| > 0 {
        assert Last(r.events) == a.events[|a.events| - 1];
      }
    } else if |a.events| > 0 {
      assert Last(r.events) == a.events[|a.events| - 1];
    }
  }

  lemma ThenNoFraming(a: Stream, b: Stream)
    requires NoFraming(a.events) && NoFraming(b.events)
    ensures NoFraming(Then(a, b).events)
  {
    var r := Then(a, b);
    if a.outcome == Success {
      forall i | |a.events| <= i < |r.events|
        ensures r.events[i] == b.events[i - |a.events|]
      {
      }
    }
  }

  /** Everything after the input checks: the checked compute items, how the
      checked sequence ended, and on a normal end the success event. */
  function ComputeStage(step: Step, env: Env, durationMs: nat): (r: Stream)
    ensures NoFraming(r.events)
    ensures forall e | e in r.events :: !e.StepInputEvent?
    ensures SuccessLast(r)
    ensures CheckFailureFramed(r)
  {
    var checked := CheckedCompute(step, env);
    var processed := ProcessItems(step, env, checked.items);
    var tail := Then(Stream([], checked.end), Emit([StepSuccessEvent(durationMs)]));
    ComputeStageShape(processed, tail, checked.end, durationMs);
    Then(processed, tail)
  }

  /** The shape of the compute stage, from the processed items' shape. */
  lemma ComputeStageShape(processed: Stream, tail: Stream, end: Outcome, durationMs: nat)
    requires AfterInputs(processed.events) && CheckFailureFramed(processed)
    requires !end.TypeCheckFailed?
    requires tail == Then(Stream([], end), Emit([StepSuccessEvent(durationMs)]))
    ensures var r := Then(processed, tail);
      && NoFraming(r.events)
      && (forall e | e in r.events :: !e.StepInputEvent?)
      && SuccessLast(r)
      && CheckFailureFramed(r)
  {
    var r := Then(processed, tail);
    assert CheckFailureFramed(r) by {
      NoChecksFramed(tail);
      ThenFramed(processed, tail);
    }
    assert SuccessLast(r) by {
      assert forall i | 0 <= i < |processed.events| :: processed.events[i] in processed.events;
      ThenSuccessLast(processed, tail);
    }
    assert NoFraming(r.events) by {
      assert forall i | 0 <= i < |processed.events| :: processed.events[i] in processed.events;
      ThenNoFraming(processed, tail);
    }
  }

  /** The whole event sequence of one step attempt: the framing event
      first and nowhere else, a success event last exactly when the attempt
      succeeds and nowhere else, and a failed type check only as the final
      event. */
  function ExecuteStep(step: Step, env: Env, priorAttempts: int, durationMs: nat): (r: Stream)
    ensures |r.events| > 0 && r.events[0] == FramingEvent(priorAttempts)
    ensures NoFraming(r.events[1..])
    ensures SuccessLast(r)
    ensures CheckFailureFramed(r)
  {
    var framing := FramingEvent(priorAttempts);
    var loading := Emit(ResolveInputs(env, step.inputs).loadEvents);
    var inputs := InputStage(step, env);
    var rest := ComputeStage(step, env, durationMs);
    var body := Then(loading, Then(inputs, rest));
    BodyShape(loading, inputs, rest);
    FramedBody(framing, body);
    Then(Emit([framing]), body)
  }

  /** The shape facts of the input-loading, input-checking and compute
      stages composed. */
  lemma BodyShape(loading: Stream, inputs: Stream, rest: Stream)
    requires loading.outcome == Success && forall e | e in loading.events :: IsStoreEvent(e)
    requires forall e | e in inputs.events :: e.StepInputEvent?
    requires CheckFailureFramed(inputs)
    requires NoFraming(rest.events) && SuccessLast(rest) && CheckFailureFramed(rest)
    ensures var body := Then(loading, Then(inputs, rest));
      NoFraming(body.events) && SuccessLast(body) && CheckFailureFramed(body)
  {
    assert forall i | 0 <= i < |loading.events| :: loading.events[i] in loading.events;
    assert forall i | 0 <= i < |inputs.events| :: inputs.events[i] in inputs.events;
    NoChecksFramed(loading);
    ThenFramed(inputs, rest);
    ThenFramed(loading, Then(inputs, rest));
    ThenSuccessLast(inputs, rest);
    ThenSuccessLast(loading, Then(inputs, rest));
    ThenNoFraming(inputs, rest);
    ThenNoFraming(loading, Then(inputs, rest));
  }

  /** Prefixing the framing event to a body without framing events. */
  lemma FramedBody(framing: Event, body: Stream)
    requires framing.StepStartEvent? || framing.StepRestartedEvent?
    requires NoFraming(body.events) && SuccessLast(body) && CheckFailureFramed(body)
    ensures var r := Then(Emit([framing]), body);
      && r.events[0] == framing && r.events[1..] == body.events
      && SuccessLast(r) && CheckFailureFramed(r)
  {
    var r := Then(Emit([framing]), body);
    assert r.events[1..] == body.events;
    NoChecksFramed(Emit([framing]));
    ThenFramed(Emit([framing]), body);
    ThenSuccessLast(Emit([framing]), body);
  }
}

=== FILE: step_model.dfy ===
/** Values, Dagster types and the compiled step descriptor that the
    step-execution core reads. Everything here is immutable once the
    execution plan has been compiled. */
module StepModel {

  datatype Option<+T> = None | Some(value: T)

  /** A runtime value, as far as the core inspects it: the null value (what an
      implicit Nothing output carries), a list (what a fan-in input becomes)
      or any other object, known by its runtime type name and an identity. */
  datatype Value = NoneValue | ListValue(items: seq<Value>) | Object(typeName: string, id: nat)

  /** The runtime type name of a value, as `type(value)` would report it. */
  function RuntimeTypeName(v: Value): string {
    match v
    case NoneValue => "NoneType"
    case ListValue(_) => "list"
    case Object(t, _) => t
  }

  /** Only the Nothing kind changes what the core does. */
  datatype TypeKind = NothingKind | ValueKind

  datatype DagsterType = DagsterType(displayName: string, kind: TypeKind)

  predicate IsNothing(t: DagsterType) {
    t.kind == NothingKind
  }

  /** A solid handle as the path of solid names from the outermost composite
      down to the step's own solid; the empty path stands for "no handle"
      (the parent of a top-level solid). */
  type SolidHandle = seq<string>

  function Parent(h: SolidHandle): (p: SolidHandle)
    ensures |h| > 0 ==> |p| == |h| - 1 && p == h[..|h| - 1]
    ensures |h| == 0 ==> p == []
  {
    if |h| == 0 then [] else h[..|h| - 1]
  }

  datatype StepInputDef = StepInputDef(name: string, dagsterType: DagsterType)

  /** A declared step output. `managerKey` and `metadata` are what the
      output-manager path records in its SET_ASSET operation. */
  datatype StepOutputDef = StepOutputDef(
    name: string,
    dagsterType: DagsterType,
    optional: bool,
    managerKey: string,
    metadata: seq<string>)

  datatype Step = Step(
    key: string,
    handle: SolidHandle,
    inputs: seq<StepInputDef>,
    outputs: seq<StepOutputDef>)

  /** Addresses one produced artifact: (step key, output name). */
  datatype StepOutputHandle = StepOutputHandle(stepKey: string, outputName: string)

  /** A precomputed memoization version; None when the plan has none. */
  type Version = Option<string>

  /** How a type check described itself: user text, or the description the
      core builds when a predicate returns something that is not a TypeCheck
      (naming the Dagster type, the returned value's type and the checked
      value's type). */
  datatype Description =
    | Text(text: string)
    | NonCanonicalReturn(typeName: string, returnedType: string, valueType: string)

  /** The canonical result shape of a type check. */
  datatype TypeCheck = TypeCheck(success: bool, description: Option<Description>, metadata: seq<string>)

  /** Materialization records: the current asset kind and the legacy kind. */
  datatype Materialization = AssetMaterialization(assetKey: string) | LegacyMaterialization(legacyLabel: string)

  datatype ExpectationResult = ExpectationResult(passed: bool, expectationLabel: string)

  predicate Distinct<T(==)>(s: seq<T>) {
    forall i, j | 0 <= i < j < |s| :: s[i] != s[j]
  }

  function InputNames(inputs: seq<StepInputDef>): (r: seq<string>)
    ensures |r| == |inputs|
    ensures forall i | 0 <= i < |inputs| :: r[i] == inputs[i].name
  {
    seq(|inputs|, i requires 0 <= i < |inputs| => inputs[i].name)
  }

  function OutputNames(outputs: seq<StepOutputDef>): (r: seq<string>)
    ensures |r| == |outputs|
    ensures forall i | 0 <= i < |outputs| :: r[i] == outputs[i].name
  {
    seq(|outputs|, i requires 0 <= i < |outputs| => outputs[i].name)
  }

  /** Names of the inputs that are loaded at all: every input whose type is
      not Nothing, in declaration order. */
  function LoadedInputNames(inputs: seq<StepInputDef>): seq<string> {
    if |inputs| == 0 then []
    else
      var last := inputs[|inputs| - 1];
      LoadedInputNames(inputs[..|inputs| - 1]) + (if IsNothing(last.dagsterType) then [] else [last.name])
  }

  /** Output and input names of a compiled step are unique. */
  predicate WellFormed(step: Step) {
    Distinct(InputNames(step.inputs)) && Distinct(OutputNames(step.outputs))
  }

  predicate HasStepOutput(step: Step, name: string) {
    name in OutputNames(step.outputs)
  }

  /** The first declared output with this name. */
  function StepOutputNamed(outputs: seq<StepOutputDef>, name: string): (o: StepOutputDef)
    requires name in OutputNames(outputs)
    ensures o in outputs && o.name == name
  {
    if outputs[0].name == name then outputs[0]
    else
      assert OutputNames(outputs) == [outputs[0].name] + OutputNames(outputs[1..]);
      StepOutputNamed(outputs[1..], name)
  }

  /** The first declared input with this name. */
  function StepInputNamed(inputs: seq<StepInputDef>, name: string): (d: StepInputDef)
    requires name in InputNames(inputs)
    ensures d in inputs && d.name == name
  {
    if inputs[0].name == name then inputs[0]
    else
      assert InputNames(inputs) == [inputs[0].name] + InputNames(inputs[1..]);
      StepInputNamed(inputs[1..], name)
  }
}

=== FILE: type_checking.dfy ===
/** The type checker and the checked-event emitters for step inputs and step
    outputs (execute_step.py `_do_type_check`, `_type_checked_*`). */
module TypeChecking {
  import opened StepModel
  import opened Events
  import opened ErrorBoundary
  import opened Collaborators

  /** A type check either completes with a canonical result or the predicate
      raised. */
  datatype CheckAttempt = CheckCompleted(result: TypeCheck) | CheckRaised(checkRaised: Raised)

  /** Normalises a predicate's return: a TypeCheck comes back unchanged, any
      other return becomes a failing TypeCheck that names the Dagster type,
      the returned value's type and the checked value's type. Only a raise
      in the predicate itself makes the check not complete. */
  function DoTypeCheck(t: DagsterType, v: Value, ret: PredicateReturn): (r: CheckAttempt)
    ensures r.CheckRaised? <==> ret.PredicateRaised?
    ensures r.CheckRaised? ==> r.checkRaised == ret.predicateRaised
    ensures ret.ReturnedTypeCheck? ==> r.result == ret.typeCheck
    ensures ret.ReturnedOther? ==>
      && !r.result.success
      && r.result.description == Some(NonCanonicalReturn(t.displayName, RuntimeTypeName(ret.other), RuntimeTypeName(v)))
  {
    match ret
    case ReturnedTypeCheck(tc) => CheckCompleted(tc)
    case ReturnedOther(other) =>
      CheckCompleted(TypeCheck(false, Some(NonCanonicalReturn(t.displayName, RuntimeTypeName(other), RuntimeTypeName(v))), []))
    case PredicateRaised(raised) => CheckRaised(raised)
  }

  /** The type-check data an event carries: the verdict, description and
      metadata of the check, labelled with the input or output name. */
  function CheckData(tc: TypeCheck, checkLabel: string): (d: TypeCheckData)
    ensures d.passed == tc.success && d.checkLabel == checkLabel
    ensures d.checkDescription == tc.description && d.entries == tc.metadata
  {
    TypeCheckData(tc.success, checkLabel, tc.description, tc.metadata)
  }

  /** The verdict the type checker gives for one input value. */
  function InputCheck(step: Step, env: Env, name: string, value: Value): CheckAttempt
    requires name in InputNames(step.inputs)
  {
    var t := StepInputNamed(step.inputs, name).dagsterType;
    DoTypeCheck(t, value, env.typeCheck(t, value))
  }

  /** Type-checks one loaded input: one step-input event carrying the
      verdict, then a raise if the check failed. A predicate that raises is
      wrapped as a type-check user-code error and no event is emitted. */
  function TypeCheckedInput(step: Step, env: Env, name: string, value: Value): (r: Stream)
    requires name in InputNames(step.inputs)
    ensures |r.events| <= 1
    ensures forall e | e in r.events :: e.StepInputEvent? && e.inputName == name && e.checkData.checkLabel == name
    ensures |r.events| == 1 <==> InputCheck(step, env, name, value).CheckCompleted?
    ensures |r.events| == 1 ==> r.events[0].checkData.passed == InputCheck(step, env, name, value).result.success
    ensures |r.events| == 1 ==> r.events[0].checkData == CheckData(InputCheck(step, env, name, value).result, name)
    ensures r.outcome == Success <==> |r.events| == 1 && r.events[0].checkData.passed
    ensures r.outcome == Success || r.outcome == TypeCheckFailed(name) || r.outcome == UserCodeError(TypeCheckError)
    ensures CheckFailureFramed(r)
  {
    match InputCheck(step, env, name, value)
    case CheckRaised(raised) => Fail(Guarded(TypeCheckError, false, raised))
    case CheckCompleted(tc) =>
      Stream([StepInputEvent(name, CheckData(tc, name))], if tc.success then Success else TypeCheckFailed(name))
  }

  /** The verdict the type checker gives for one output value. */
  function OutputCheck(step: Step, env: Env, name: string, value: Value): CheckAttempt
    requires HasStepOutput(step, name)
  {
    var t := StepOutputNamed(step.outputs, name).dagsterType;
    DoTypeCheck(t, value, env.typeCheck(t, value))
  }

  /** Type-checks one output value: one step-output event for
      (step key, output name) carrying the verdict and the version, then a
      raise if the check failed. */
  function TypeCheckedOutput(step: Step, env: Env, name: string, value: Value, version: Version): (r: Stream)
    requires HasStepOutput(step, name)
    ensures |r.events| <= 1
    ensures forall e | e in r.events ::
      && e.StepOutputEvent? && e.outputHandle == StepOutputHandle(step.key, name)
      && e.checkData.checkLabel == name && e.version == version
    ensures |r.events| == 1 <==> OutputCheck(step, env, name, value).CheckCompleted?
    ensures |r.events| == 1 ==> r.events[0].checkData.passed == OutputCheck(step, env, name, value).result.success
    ensures |r.events| == 1 ==> r.events[0].checkData == CheckData(OutputCheck(step, env, name, value).result, name)
    ensures r.outcome == Success <==> |r.events| == 1 && r.events[0].checkData.passed
    ensures r.outcome == Success || r.outcome == TypeCheckFailed(name) || r.outcome == UserCodeError(TypeCheckError)
    ensures CheckFailureFramed(r)
  {
    match OutputCheck(step, env, name, value)
    case CheckRaised(raised) => Fail(Guarded(TypeCheckError, false, raised))
    case CheckCompleted(tc) =>
      Stream([StepOutputEvent(StepOutputHandle(step.key, name), CheckData(tc, name), version)],
             if tc.success then Success else TypeCheckFailed(name))
  }
}
